=== FILE: README.md ===
# PULL-TON core, modelled in Dafny

PULL-TON is a staking-pool service on TON with a paid subscription. This project models its
backend core and proves properties of the model:

- the on-chain accessor: network selection, the pool address, the rate-limit retry
  combinator, and the four 10-second caches in front of the node;
- the position arithmetic of the public pool routes and the subscriber routes;
- the three middlewares (user, subscriber, admin) and the subscription routes;
- the payment-provider webhook that moves subscription rows between ACTIVE, CANCELED,
  PAST_DUE and INACTIVE;
- the back-office routes (statistics with monthly recurring revenue, listings with paging,
  admin management);
- the once-a-minute reconciliation job;
- the deployment script's retry policy, pre-flight checks and 30-poll activation wait.

Modelling conventions:

- The TON node is a scripted reply stream `nat -> Outcome<T>`: the k-th call gets `up(k)`.
- A `World(cache, clock, cursor)` threads the cache, the clock and the index of the next
  node call. The clock advances only by the time the code sleeps. "No node call" means the
  cursor is unchanged.
- The database is a `Db` of immutable tables, each a sequence in the order the store returns
  its rows.
- Environment variables are strings, and "" stands for unset.
- Address parsing, JWT verification, password hashing and the webhook signature check are
  parameters of the model.
- Amounts are natural numbers. JavaScript `BigInt` division is `Arith.TruncDiv`, and
  `Math.ceil` is `Arith.CeilDiv`.
- Percentages are kept in hundredths of a percent (basis points). The source's final
  `/ 100` into a floating-point number is not modelled.

Two behaviours of the code worth knowing:

- The reconciliation job reads through the same cached `getPoolState` and `getUserShares`
  as the routes (`backend/src/services/poolSync.ts:18` and `:50`). `PoolSync.SyncPool` states
  that a fresh cached snapshot is what gets persisted.
- A subscriber passes `subscriptionMiddleware` when the period end is exactly now. The status
  route's `hasAccess` is false at that instant. `Billing.AccessVersusMiddleware` and
  `Billing.BoundaryInstant` pin down this one-instant difference.

## Model

| member | source | states |
|---|---|---|
| Text.ContainsIffOccurs | backend/src/lib/ton.ts:79 | `includes` holds exactly when the pattern occurs at some position of the message |
| Text.RemoveFirst | backend/src/middleware/auth.ts:28-30 | a string `replace` leaves a string without the pattern untouched and otherwise removes exactly one occurrence |
| Text.RemoveFirstDropsFirstOccurrence | backend/src/middleware/auth.ts:28-30 | the occurrence removed is the first one: the result is the text before it followed by the text after it |
| Text.RemoveLeading | backend/src/middleware/auth.ts:28-30 | a leading occurrence is the one removed, so `"Bearer " + t` yields `t` |
| Arith.TruncDiv | backend/src/routes/pool.ts:119-121 | BigInt division truncates toward zero: the remainder has the dividend's sign and is smaller than the divisor |
| Arith.TruncDivIsNotEuclidean | backend/src/routes/pool.ts:117-121 | for a positive divisor, BigInt and Euclidean division agree except on a negative dividend that is not a multiple, where BigInt's quotient is one higher |
| Arith.CeilDiv | backend/src/routes/admin.ts:100 | `Math.ceil(a / b)` is the least integer q with a <= q*b (for b > 0) |
| Retry.WithRetry | backend/src/lib/ton.ts:73-91 | the outcome is the last call's; every earlier call was a retryable failure; the calls stay within the budget; the sleep is the geometric sum of the base delay |
| Retry.RetriedThenSucceeds | backend/src/lib/ton.ts:73-91 | k retryable failures and then a success within the budget give that success after k+1 calls and baseDelay*(2^k - 1) ms |
| Retry.FailsFast | backend/src/lib/ton.ts:81-87 | an error that is not a rate limit is rethrown after one call with no sleep |
| Retry.ExhaustsBudget | backend/src/lib/ton.ts:81-87 | when every attempt is rate limited, the last error is rethrown after the full budget of calls |
| Retry.ChainBackoffSchedule | backend/src/lib/ton.ts:73-84 | with the backend defaults, two rate limits and then a success cost 3 calls and 2000 + 4000 ms |
| Retry.DeployRetriesFewer | scripts/deploy.ts:25-40 | the script retries only status 429, a strict subset of what the backend retries (ERR_BAD_REQUEST is the witness) |
| Retry.MessageMentioning429 | backend/src/lib/ton.ts:78-80 | any error whose message has "429" at some position, without a 429 status, is retried by the backend but not by the script |
| Chain.NetworkOf | backend/src/lib/ton.ts:10-13 | mainnet is selected exactly when TON_NETWORK is the string "mainnet"; unset means testnet |
| Chain.PoolAddress | backend/src/lib/ton.ts:98-112 | the address is the network-specific variable, or else the shared one, and only when it is non-empty and parses |
| Chain.ChainCall | backend/src/lib/ton.ts:73-91 | every getter call of the accessor goes through `withRetry` with the backend defaults, so it makes between 1 and 3 node calls |
| Chain.HealthyCall | backend/src/lib/ton.ts:73-91 | a getter whose first node call answers costs that one call and no wait, and answers with the reply |
| Chain.FetchTestnet | backend/src/lib/ton.ts:204-222 | the snapshot is balance, total shares and share price from the three getters called in turn, with no mainnet fields; it is built exactly when none of the three throws |
| Chain.TestnetSnapshotOfHealthyNode | backend/src/lib/ton.ts:204-222 | three getters that answer at once give the snapshot of their replies after 3 calls and 1000 ms of pacing |
| Chain.FetchMainnet | backend/src/lib/ton.ts:170-202 | a mainnet snapshot fails exactly when the aggregate `poolState` call fails; the balance and the staked amount are the replies of the two following getters, or 0 when one throws; zero shares and a share price of 1 TON |
| Chain.MainnetStakeDegradesToZero | backend/src/lib/ton.ts:193-199 | whenever `availableForStaking` throws, after any number of retries, the snapshot is still built, with the staked amount 0 and the balance as read |
| Chain.GetPoolState | backend/src/lib/ton.ts:151-236 | no address gives the zero sentinel with no call; a fresh entry is served as is; a stale one is refetched, and a built snapshot is served and cached with the clock after the fetch; a failed refresh keeps the cache and serves the old data or the sentinel; the per-user caches are untouched; the network invariant is kept |
| Chain.PoolStateCallsIffStale | backend/src/lib/ton.ts:155-167 | the node is called exactly when a pool address exists and no fresh snapshot is cached |
| Chain.PoolStateServedFromCache | backend/src/lib/ton.ts:165-167 | after a successful refresh, any read within the TTL returns the same snapshot with no call |
| Chain.ReadUser | backend/src/lib/ton.ts:239-330 | off-network reads answer 0 with no call; a fresh entry is served as is; a missing or stale one is refetched, and a reply is returned and cached under the address; a failed refresh keeps the cache and serves the old value or 0; only this query's map at this key may change; an address that does not parse never reaches the node, writes nothing to the cache and is served the old entry's data or 0 |
| Chain.ReadUserCallsIffStale | backend/src/lib/ton.ts:239-270 | the node is called exactly when the query is served, the key is missing or stale, and the address parses |
| Chain.UnknownAddressOnFailingNode | backend/src/lib/ton.ts:262-269 | an address never read before, on a failing node, is answered with 0 and nothing is cached |
| Chain.ReadyForNominatorStake | backend/src/lib/ton.ts:333-345 | false without a pool or off mainnet; on mainnet, the flag of the getter's reply, false when it throws; the cache is untouched and the clock and cursor advance by the retry's sleeps and calls |
| Chain.ReadyReflectsFlag | backend/src/lib/ton.ts:333-345 | on mainnet, a node that answers at once is reported ready exactly when its flag is non-zero, after one call |
| Chain.EstimatedApy | backend/src/lib/ton.ts:348-362 | 0 off mainnet or without a pool; otherwise the retried call's reply, or 350 basis points when it finally throws, with the clock and cursor advanced by the retry's sleeps and calls |
| Chain.ApyReflectsReply | backend/src/lib/ton.ts:354-358 | a node that answers the APY getter at once has its reply reported after exactly one call and no wait |
| Chain.ApyDefaultsOnFailure | backend/src/lib/ton.ts:354-361 | a first failure that is not a rate limit is not retried and yields the 3.5 % default (350 basis points) after one call |
| Wrappers.FilterAppend | backend/src/routes/admin.ts:68-80 | a `where` filter keeps the rows in store order: filtering a concatenation concatenates the filtered parts |
| Wrappers.Take | backend/src/services/poolSync.ts:45 | `take: n` keeps the first n rows in order, or all of them when there are fewer, and introduces no row |
| Valuation.ProRata | backend/src/routes/user.ts:28-33 | the value is the floor of balance*shares/totalShares, and 0 when there are no shares |
| Valuation.ProRataWithinBalance | backend/src/services/poolSync.ts:52-57 | a holder of no more than all the shares is never valued above the pool balance |
| Valuation.ProRataMonotone | backend/src/routes/pool.ts:108-112 | more shares never give a smaller value |
| Valuation.PoolBasisPoints | backend/src/routes/pool.ts:124-128 | the pool share is the floor of shares*10000/totalShares, and 0 with no shares |
| Valuation.PoolBasisPointsBounded | backend/src/routes/user.ts:119-124 | the pool share is the pro-rata value of a 10000-unit pool, so it never exceeds 100 % |
| Valuation.TestnetProfit | backend/src/routes/pool.ts:114-118 | profit is the value above the shares at 1:1, clamped at 0 |
| Valuation.TestnetProfitPercent | backend/src/routes/pool.ts:119-121 | the percent is the unclamped (value - shares)/shares truncated toward zero, and never below -100 % |
| Valuation.PercentFacts | backend/src/routes/pool.ts:119-121 | the truncated percent is within one share of the exact ratio, has the sign of value - shares, and is never below -100 % |
| Valuation.LossShowsInPercentOnly | backend/src/routes/pool.ts:114-121 | on any loss the reported profit is 0, while the percent is negative exactly when the loss is at least a hundredth of a percent of the shares |
| Valuation.MainnetProfitPercent | backend/src/routes/pool.ts:102-105 | the percent is the signed profit over the initial value (value - profit), truncated toward zero, so a loss gives a percent of at most 0; it is 0 when the initial value is not positive |
| Valuation.NetProfit | backend/src/routes/user.ts:164 | profit + deposited == currentValue + withdrawn; it is negative exactly when deposits exceed value plus withdrawals |
| Paging.OrDefault | backend/src/routes/user.ts:62-63 | `parseInt(x) \|\| d` keeps a parsed non-zero value and otherwise falls back to the default, so the result is never 0 |
| Paging.Paginate | backend/src/routes/user.ts:62-64 | page and limit are never 0; skip + limit == page*limit; pages is the least count whose pages hold every row |
| Paging.PageStartsInside | backend/src/routes/admin.ts:96-101 | with a positive limit and page >= 1, the page starts inside the rows exactly when page <= pages |
| Paging.Window | backend/src/routes/user.ts:66-72 | skip/take returns exactly `take` rows when that many remain after `skip`, else the rest (none past the end), each the row at its offset; no page for a negative skip or take |
| Auth.Token | backend/src/middleware/auth.ts:28-32 | a missing header gives no token; a header without the "Bearer " prefix is taken whole |
| Auth.BearerTokenExtracted | backend/src/middleware/auth.ts:28-30 | a well-formed bearer header yields exactly the token |
| Auth.Authenticate | backend/src/middleware/auth.ts:22-60 | passes exactly for a non-empty verified token whose user exists, with that user's id and wallet; a missing token, a rejected token and an unknown user are refused with 401 |
| Auth.RequireSubscription | backend/src/middleware/auth.ts:63-89 | 401 without a user; otherwise passes exactly when the user's row is ACTIVE and its period end is not in the past, and refuses with 403 |
| Auth.RequireSubscriber | backend/src/routes/user.ts:56-60 | the subscriber routes pass exactly when both middlewares pass in turn, refusing with 401 or 403 |
| Auth.AuthenticateAdmin | backend/src/middleware/auth.ts:92-137 | passes exactly for a non-empty verified token with the admin flag whose admin row exists, with that admin's id, e-mail and role; 403 exactly for a verified token without the flag; every other refusal is 401 |
| Billing.HasAccess | backend/src/routes/subscription.ts:22-32 | access means an ACTIVE row whose period end, if any, is strictly in the future |
| Billing.AccessVersusMiddleware | backend/src/routes/subscription.ts:22-32 | access implies the middleware admits; the only admitted case without access is a period ending exactly now |
| Billing.BoundaryInstant | backend/src/middleware/auth.ts:69-83 | a row ending exactly now passes the middleware but has no access |
| Billing.UpsertCustomer | backend/src/routes/subscription.ts:76-86 | with a row for the user, exactly the customer id of the user's first row is set; without one, one INACTIVE row holding only the customer id is appended; other users' rows are untouched |
| Billing.Checkout | backend/src/routes/subscription.ts:49-104 | 500 exactly without a price id; 404 exactly for an unknown user; 400 exactly for an ACTIVE row (even an expired one); a session starts in every other case; a stored customer id is reused with no write; without one, the new customer is created and upserted onto the user's row |
| Billing.Portal | backend/src/routes/subscription.ts:107-130 | 404 exactly when the user has no stored customer id; otherwise the session is for that id |
| Webhook.MapStripeStatus | backend/src/routes/webhook.ts:177-190 | every provider status maps to exactly one row status: active/trialing to ACTIVE, past_due/unpaid to PAST_DUE, canceled to CANCELED, anything else to INACTIVE |
| Webhook.UpdateFirst | backend/src/routes/webhook.ts:118-149 | the customer's first row is replaced by its update and every other row is kept; with no such row nothing changes |
| Webhook.SetStatusOfCustomer | backend/src/routes/webhook.ts:151-175 | every row of the customer gets the status and no other row changes |
| Webhook.CheckoutCompleted | backend/src/routes/webhook.ts:86-116 | the customer's first row becomes ACTIVE for 30 days from now with the subscription id stored; no other row changes |
| Webhook.SubscriptionChanged | backend/src/routes/webhook.ts:118-149 | the customer's first row gets the mapped status, the subscription id and the period bounds converted from seconds to ms; no other row changes |
| Webhook.HandleWebhook | backend/src/routes/webhook.ts:24-82 | 500 without a secret and 400 on a bad signature, with no change; otherwise 200; a completed checkout and a created or updated subscription go to their handlers; deletion sets CANCELED and a failed payment PAST_DUE on exactly the customer's rows, all others kept; unknown events change nothing |
| Webhook.CheckoutActivatesFirstRow | backend/src/routes/webhook.ts:86-116 | a completed checkout activates exactly the customer's first row for 30 days |
| Webhook.SubscriptionChangeLandsOnFirstRow | backend/src/routes/webhook.ts:118-149 | a subscription event gives exactly the customer's first row the mapped status, the id and the period in ms |
| PoolRoutes.Info | backend/src/routes/pool.ts:19-81 | live snapshot fields with a pool address, else the stored stats or 0; user count from the stats; mainnet fields exactly on mainnet, where the APY estimate and then the readiness flag are read after the snapshot and reported as read, and the three amounts are the live extras or 0; no node call without an address |
| PoolRoutes.PositionOf | backend/src/routes/pool.ts:84-147 | the shares are the live read and the pool share is their basis points of the snapshot read next; on testnet the value is their pro-rata share of the balance, with the clamped profit and the unclamped percent; on mainnet the value and profit are the contract's per-user getters and the percent is relative to value - profit; without a pool everything is 0 with no call |
| PoolRoutes.TestnetPositionBounded | backend/src/routes/pool.ts:107-128 | on testnet, a holder of no more than all shares is valued at most the pool balance and at most 100 % of the pool |
| UserRoutes.HoldingOf | backend/src/routes/user.ts:24-25 | the shares are the live cached read, the snapshot is the cached read that follows it, and the network invariant of the cache is kept |
| UserRoutes.Me | backend/src/routes/user.ts:10-53 | refused with 401 exactly when authentication fails; otherwise the stored id and wallet, the live shares, their pro-rata value, and a subscription summary exactly when a row exists, carrying that row's status and period end; the world is the one left by the holding read |
| Store.TransactionsOf | backend/src/routes/user.ts:67-69 | exactly the user's rows are kept |
| UserRoutes.Transactions | backend/src/routes/user.ts:56-95 | refused exactly as the subscriber middlewares refuse; the pagination counts all of the user's rows; the page holds only the user's rows |
| UserRoutes.ConfirmedTotal | backend/src/routes/user.ts:134-141 | every confirmed row of the user and type is part of the summed amount |
| UserRoutes.ConfirmedTotalAppend | backend/src/routes/user.ts:134-141 | the confirmed totals add up over any split of the transaction table |
| UserRoutes.ConfirmedTotalZero | backend/src/routes/user.ts:140-141 | without a matching confirmed row the total is 0 |
| UserRoutes.RecordedRowContributes | backend/src/routes/user.ts:134-141 | one row counts its amount exactly when it is a confirmed row of the user and type, and recording a row adds exactly that to the total |
| UserRoutes.UnconfirmedRowChangesNothing | backend/src/routes/user.ts:136 | recording a pending or failed row, or another user's row, leaves every total unchanged |
| UserRoutes.DashboardOf | backend/src/routes/user.ts:98-176 | refused exactly as the subscriber middlewares refuse; the shares and the pool are the holding read; the value and pool share are computed from them; the totals are the confirmed sums; profit + deposited == value + withdrawn; the recent rows are the user's newest five |
| Admin.Guarded | backend/src/routes/admin.ts:11 | no admin route answers a request the admin middleware rejects, and the refusal code is the middleware's |
| Admin.CountActive | backend/src/routes/admin.ts:23 | the number of ACTIVE rows never exceeds the number of rows |
| Admin.CountActiveAppend | backend/src/routes/admin.ts:22-23 | the ACTIVE count adds up over any split of the table |
| Admin.CountActiveBounds | backend/src/routes/admin.ts:22-23 | the ACTIVE count is at most the row count, 0 exactly when no row is ACTIVE, and the row count exactly when all are |
| Admin.Mrr | backend/src/routes/admin.ts:33 | MRR is 5 per ACTIVE row: a multiple of 5, at most 5 per row, and 0 exactly when no row is ACTIVE |
| Admin.StatsOf | backend/src/routes/admin.ts:14-58 | user count; the ACTIVE row count; MRR == 5 * that count; the pool block is the `getPoolState` snapshot and reading it is the route's only node access; the first min(5, users) users with their own id and wallet address, each flagged exactly when its own row is ACTIVE |
| Admin.MatchingUsers | backend/src/routes/admin.ts:68-70 | a user matches exactly when the search is empty or its wallet address contains the search |
| Admin.ListUsers | backend/src/routes/admin.ts:61-106 | the total counts every matching user; the page is the skip/limit window of the matches in store order; an empty search counts every user |
| Admin.UserDetailOf | backend/src/routes/admin.ts:109-139 | 404 exactly for an unknown id; otherwise the user, its subscription and the first 20 of its transactions in store order, or all of them when there are fewer |
| Admin.ParseStatus | backend/src/routes/admin.ts:149 | a query value names a status exactly when it is one of the four enum names |
| Admin.ParseStatusName | backend/src/routes/admin.ts:149 | parsing a status name gives back that status |
| Admin.WithStatus | backend/src/routes/admin.ts:149 | a row is kept exactly when it has the requested status; an empty filter keeps the table as is |
| Admin.ListSubscriptions | backend/src/routes/admin.ts:142-184 | a non-empty unknown status fails in the store; otherwise the total counts the rows of the status and the page is the skip/limit window of them, each joined with its user |
| Admin.CreateAdmin | backend/src/routes/admin.ts:187-220 | 403 for a non-super admin and 400 without an e-mail or password, with no change; it succeeds exactly for a unique e-mail, appending the hashed password and the role (MODERATOR by default) |
| Admin.ListAdmins | backend/src/routes/admin.ts:223-246 | 403 exactly for a non-super admin; otherwise every admin in order, without the password hash |
| Admin.ModeratorsCannotManageAdmins | backend/src/routes/admin.ts:189-191 | a moderator can neither create nor list admins |
| PoolSync.ScheduleCount | backend/src/services/poolSync.ts:6-14 | run k has started by time t exactly when k is below the number of minute-spaced runs started by t |
| PoolSync.ActiveSubscribers | backend/src/services/poolSync.ts:39-44 | a user is selected exactly when its subscription row is ACTIVE |
| PoolSync.Batch | backend/src/services/poolSync.ts:39-46 | the first 100 ACTIVE subscribers in store order, or all of them when there are fewer |
| PoolSync.ShareReads | backend/src/services/poolSync.ts:48-50 | the job's `getUserShares` reads, one per batch user in batch order, each issued on the world the previous read left |
| PoolSync.SyncOne | backend/src/services/poolSync.ts:49-69 | one more batch user keeps what the loop knows: the synced ids, the untouched rows, the synced rows' values, and the shares written as read |
| PoolSync.SetSynced | backend/src/services/poolSync.ts:59-66 | only the row with the id gets new cached fields; ids and wallets stay |
| PoolSync.SyncBatch | backend/src/services/poolSync.ts:48-70 | exactly the batch users whose own write succeeds are synced, valued against the run's snapshot; each synced row holds the shares read for that user (the last read when an id repeats, so 0 from a failing node with nothing cached); the world is the one the last read left; all other rows are unchanged |
| PoolSync.SyncPool | backend/src/services/poolSync.ts:16-76 | the stats row is the snapshot plus the user count; a failed stats write changes nothing; a failed batch query syncs no one; one failing user does not stop the others; only ACTIVE subscribers are synced; each synced row holds its own `getUserShares` read, issued in batch order after the snapshot |
| PoolSync.MainnetSyncValuesZero | backend/src/services/poolSync.ts:52-57 | on mainnet every synced user is valued at 0, because the snapshot reports no shares |
| Deploy.PollSpec | scripts/deploy.ts:132-150 | the loop counter stays within 30, and activation was seen exactly when the counter ended below 30 |
| Deploy.StateQuery | scripts/deploy.ts:136 | one state query makes between 1 and 5 node calls and answers with the reply of its last call |
| Deploy.WaitForDeployment | scripts/deploy.ts:132-150 | the imperative loop computes exactly the recursive definition of the polling |
| Deploy.PollCost | scripts/deploy.ts:133-136 | for any query of 1 to 5 calls, each iteration sleeps at least 3000 ms and makes between 1 and 5 node calls |
| Deploy.ActiveAtFirstPoll | scripts/deploy.ts:133-140 | a contract active at the first poll is confirmed after one call and one delay |
| Deploy.NeverConfirmedExhausts | scripts/deploy.ts:132-150 | a query that never confirms from some call index on leaves the counter at 30, unconfirmed, after at least 3000 ms per remaining poll |
| Deploy.NeverActiveQuery | scripts/deploy.ts:136-140 | when no reply from some call index on says active, no state query started there confirms |
| Deploy.NeverActiveExhaustsPolls | scripts/deploy.ts:132-150 | against a node that never reports active, the loop runs all 30 polls and sleeps at least 3000 ms for each |
| Deploy.Preflight | scripts/deploy.ts:79-107 | a thrown balance read aborts with its error; the run stops on a short balance, with the balance read, exactly when that read succeeded below 0.5 TON; a thrown state read aborts with its error; it goes on to deploy exactly for a funded deployer and an inactive contract, and stops as already deployed exactly when the contract is active |
| Deploy.Submit | scripts/deploy.ts:112-150 | a thrown seqno read aborts with its error before any transfer; otherwise the transfer is attempted 2000 ms later, at the call after the read; a submitted run's poll count is within 30, with confirmation exactly below 30, after at least 2000 ms plus 3000 ms per poll |
| Deploy.Deliver | scripts/deploy.ts:116-150 | a refused transfer aborts with its error; otherwise the poll loop runs from the send, and its confirmation, poll count, calls and sleep are reported |
| Deploy.RunDeploy | scripts/deploy.ts:42-150 | no mnemonic stops before any call; a short balance is reported as read; the transfer is attempted only for a funded deployer and an inactive contract; after a passed preflight the run is the submission with the preflight's calls and sleep, and any other preflight ending is the run's, with no transfer; the run stops as already deployed exactly in the funded, active case |
| Deploy.ActiveContractIsNotRedeployed | scripts/deploy.ts:102-107 | a funded deployer never sends a deploy to an already active contract |

## Left out

- Network I/O, the database driver and the HTTP framework. The node and the store are
  modelled as data, and a route's reply is a value.
- Concurrency. The minute timer can start a run while the previous one is still going, and
  parallel requests can interleave on the caches. The model runs one operation at a time.
- Network latency. The clock moves only by the sleeps, so a stored cache timestamp is the
  time after the fetch's sleeps.
- Floating-point display: `formatTon`, `toFixed`, and the final `/ 100` of the percentages.
  The model stops at the integer basis points.
- Chain.EstimatedApy: returns basis points. The source's division by 100 into a float
  is not modelled.
- The mainnet `poolState` tuple decoding (`readCell` and field order). The aggregate call is
  one reply whose success is what matters.
- `getNominatorPoolAddress`, `getPoolBalance` as a separate export, and `printPoolInfo` in
  the deployment script. They are display or lookup helpers with no decision logic.
- The deployment script's key derivation from the mnemonic, and the contract's init data.
  The mnemonic counts only as present or absent, and the wallet is fixed.
- JWT signing and verification, the sha256 password hash and the webhook signature. Each is a parameter:
  `verify`, `hash` and `signatureValid`.
- The error handler middleware. The model returns the status codes the routes raise, and
  `Admin.StoreError` stands for a query the store refuses (an unknown status filter, a
  duplicate e-mail).
- Auth.Authenticate: a token's claims always hold a user id here. An admin token has none, and
  the user lookup with an undefined id raises a store error that goes to `next(error)`, not a
  401 (backend/src/middleware/auth.ts:39-41 and 53-58); that path is not represented.
- Admin.CreateAdmin: the database's validation of the role value against its enum is not
  modelled, so any non-empty role is stored.
- Paging.Window: what the store does with a negative `skip` or `take` (page 0 or below, or
  a negative limit) is not modelled. The model returns `None` there.
- UserRoutes.Me and UserRoutes.DashboardOf: the routes' second user lookup and its 404
  cannot fire against one snapshot of the store, because the middleware has just found the
  row. The model takes the user from the middleware's context.
- UserRoutes.Transactions: states only that the page holds the user's own rows. The order
  (newest first) is taken to be the table's stored order.
- PoolSync: user creation dates and ordering (the job takes the first 100 in store order),
  and the console logging.
- PoolRoutes.PositionOf: node replies are natural numbers, so a negative `getUserProfit`
  reply (a loss on mainnet) is not represented. `Valuation.MainnetProfitPercent` itself
  takes a signed profit and handles the loss case.
- The frontend, the other scripts (interact, check-pool, generate-wallet, deploy-mainnet),
  the registration and login routes, and the seed script are not part of this model.

=== FILE: admin.dfy ===
/**
 * The back-office routes. Every route sits behind the admin middleware; the two admin
 * management routes also require the SUPER_ADMIN role. Rows are kept in the order the
 * store returns them (newest first for users, most recently updated first for subscriptions).
 */
module Admin {
  import opened Wrappers
  import opened Store
  import Text
  import Auth
  import Chain
  import Paging

  /** Euros per active subscription and month. */
  const PricePerSubscription := 5
  const SuperAdminRole := "SUPER_ADMIN"
  const DefaultAdminRole := "MODERATOR"
  const RecentUserCount := 5
  const DetailTransactionCount := 20

  /**
   * An admin route's reply. `StoreError` is a query the store refuses (a duplicate e-mail,
   * an unknown status value); the error handler that turns it into a response is not part of this model.
   */
  datatype Reply<+T> = Done(body: T) | Refused(code: nat) | StoreError

  /** `router.use(adminMiddleware)`: a request the middleware rejects never reaches a route. */
  function Guarded<T>(header: Option<string>, verify: string -> Auth.Verdict, admins: seq<Admin>,
                      route: Auth.AdminCtx -> Reply<T>): (r: Reply<T>)
    ensures Auth.Token(header) == "" ==> r == Refused(401)
    ensures Auth.AuthenticateAdmin(header, verify, admins).Reject? ==>
              r == Refused(Auth.AuthenticateAdmin(header, verify, admins).code)
    ensures r.Done? ==> Auth.AuthenticateAdmin(header, verify, admins).Pass?
  {
    match Auth.AuthenticateAdmin(header, verify, admins)
    case Reject(code) => Refused(code)
    case Pass(ctx) => route(ctx)
  }

  /** The number of ACTIVE subscription rows. */
  function CountActive(subs: seq<Subscription>): (c: nat)
    ensures c <= |subs|
  {
    if subs == [] then 0
    else (if subs[0].status == Active then 1 else 0) + CountActive(subs[1..])
  }

  lemma {:induction false} CountActiveAppend(a: seq<Subscription>, b: seq<Subscription>)
    ensures CountActive(a + b) == CountActive(a) + CountActive(b)
    decreases |a|
  {
    if a == [] {
      assert a + b == b;
    } else {
      assert (a + b)[1..] == a[1..] + b;
      CountActiveAppend(a[1..], b);
    }
  }

  /** The count is zero exactly when no row is ACTIVE, and never exceeds the number of rows. */
  lemma {:induction false} CountActiveBounds(subs: seq<Subscription>)
    ensures CountActive(subs) <= |subs|
    ensures CountActive(subs) == 0 <==> forall k :: 0 <= k < |subs| ==> subs[k].status != Active
    ensures CountActive(subs) == |subs| <==> forall k :: 0 <= k < |subs| ==> subs[k].status == Active
    decreases |subs|
  {
    if subs != [] {
      CountActiveBounds(subs[1..]);
      assert forall k :: 1 <= k < |subs| ==> subs[k] == subs[1..][k - 1];
    }
  }

  /** Monthly recurring revenue in euros: a flat price per ACTIVE row. */
  function Mrr(subs: seq<Subscription>): (m: nat)
    ensures m % PricePerSubscription == 0
    ensures m <= PricePerSubscription * |subs|
    ensures m == 0 <==> forall k :: 0 <= k < |subs| ==> subs[k].status != Active
    ensures m == PricePerSubscription * CountActive(subs)
  {
    CountActiveBounds(subs);
    PricePerSubscription * CountActive(subs)
  }

  datatype RecentUser = RecentUser(id: string, walletAddress: string, hasSubscription: bool)

  datatype Stats = Stats(
    totalUsers: nat,
    activeSubscriptions: nat,
    mrr: nat,
    pool: Chain.PoolState,
    recentUsers: seq<RecentUser>)

  /** `GET /stats`: the store counts, and the snapshot read through `getPoolState` on world `w`. */
  function StatsOf(cfg: Chain.Config, up: Chain.Upstream, w: Chain.World, db: Db): (r: Chain.Read<Stats>)
    ensures r.value.totalUsers == |db.users|
    ensures r.value.mrr == PricePerSubscription * r.value.activeSubscriptions
    ensures r.value.activeSubscriptions <= |db.subscriptions|
    ensures r.value.activeSubscriptions == CountActive(db.subscriptions)
    // the pool block is the cached snapshot, and reading it is the route's only node access
    ensures r.value.pool == Chain.GetPoolState(cfg, up, w).value
    ensures r.world == Chain.GetPoolState(cfg, up, w).world
    ensures |r.value.recentUsers| == if |db.users| < RecentUserCount then |db.users| else RecentUserCount
    // a recent user is flagged exactly when its own subscription row is ACTIVE
    ensures forall k :: 0 <= k < |r.value.recentUsers| ==>
              && r.value.recentUsers[k].id == db.users[k].id
              && r.value.recentUsers[k].walletAddress == db.users[k].walletAddress
              && (r.value.recentUsers[k].hasSubscription <==> HasActiveSubscription(db.subscriptions, db.users[k].id))
  {
    CountActiveBounds(db.subscriptions);
    var snapshot := Chain.GetPoolState(cfg, up, w);
    var n := if |db.users| < RecentUserCount then |db.users| else RecentUserCount;
    var recent := seq(n, k requires 0 <= k < n =>
                        RecentUser(db.users[k].id, db.users[k].walletAddress,
                                   HasActiveSubscription(db.subscriptions, db.users[k].id)));
    Chain.Read(Stats(|db.users|, CountActive(db.subscriptions), Mrr(db.subscriptions), snapshot.value, recent), snapshot.world)
  }

  datatype Listing<+T> = Listing(rows: Option<seq<T>>, pagination: Paging.Pagination)

  /** The wallet-address filter of `GET /users`: an empty search matches everyone. */
  predicate MatchesSearch(u: User, search: string) {
    search == "" || Text.Contains(u.walletAddress, search)
  }

  /** The users the search matches, in store order. */
  function MatchingUsers(users: seq<User>, search: string): (r: seq<User>)
    ensures forall u :: u in r <==> u in users && MatchesSearch(u, search)
    ensures search == "" ==> r == users
  {
    Wrappers.Filter(users, (u: User) => MatchesSearch(u, search))
  }

  /** `GET /users`: the total counts every match, and the page is the window of them that skip and limit select. */
  function ListUsers(db: Db, search: string, page: Option<int>, limit: Option<int>): (r: Listing<User>)
    ensures search == "" ==> r.pagination.total == |db.users|
    ensures r.pagination.total == |MatchingUsers(db.users, search)| <= |db.users|
    ensures r.pagination == Paging.Paginate(page, limit, r.pagination.total)
    ensures r.rows == Paging.Window(MatchingUsers(db.users, search), r.pagination.skip, r.pagination.limit)
    ensures r.rows.Some? ==> forall u :: u in r.rows.value ==> u in db.users && MatchesSearch(u, search)
    ensures r.rows.Some? ==> |r.rows.value| <= r.pagination.limit
  {
    var matching := MatchingUsers(db.users, search);
    var p := Paging.Paginate(page, limit, |matching|);
    var rows := Paging.Window(matching, p.skip, p.limit);
    assert rows.Some? ==> forall u :: u in rows.value ==> u in matching;
    Listing(rows, p)
  }

  datatype UserDetail = UserDetail(user: User, subscription: Option<Subscription>, transactions: seq<Transaction>)

  /** `GET /users/:id`: the user, its subscription and its 20 newest transactions. */
  function UserDetailOf(db: Db, id: string): (r: Reply<UserDetail>)
    ensures r.Refused? <==> FindUser(db.users, id).None?
    ensures r.Refused? ==> r.code == 404
    ensures r.Done? ==>
              && r.body.user in db.users && r.body.user.id == id
              && r.body.subscription == SubscriptionOf(db.subscriptions, id)
              && |r.body.transactions| <= DetailTransactionCount
              && forall t :: t in r.body.transactions ==> t in db.transactions && t.userId == id
    // the user's first twenty rows in store order, or all of them when there are fewer
    ensures r.Done? ==>
              var mine := TransactionsOf(db.transactions, id);
              && |r.body.transactions| == (if |mine| <= DetailTransactionCount then |mine| else DetailTransactionCount)
              && forall k :: 0 <= k < |r.body.transactions| ==> r.body.transactions[k] == mine[k]
    ensures !r.StoreError?
  {
    match FindUser(db.users, id)
    case None => Refused(404)
    case Some(u) =>
      var mine := TransactionsOf(db.transactions, id);
      var txs := Take(mine, DetailTransactionCount);
      Done(UserDetail(u, SubscriptionOf(db.subscriptions, id), txs))
  }

  /** The status named by a query value, if it names one. */
  function ParseStatus(name: string): (s: Option<Status>)
    ensures s.Some? <==> exists t :: StatusName(t) == name
    ensures s.Some? ==> StatusName(s.value) == name
  {
    if name == StatusName(Active) then Some(Active)
    else if name == StatusName(Canceled) then Some(Canceled)
    else if name == StatusName(PastDue) then Some(PastDue)
    else if name == StatusName(Inactive) then Some(Inactive)
    else None
  }

  lemma ParseStatusName(s: Status)
    ensures ParseStatus(StatusName(s)) == Some(s)
  {
  }

  datatype SubscriptionRow = SubscriptionRow(subscription: Subscription, user: Option<User>)

  /** `include: { user: true }`: each row with the user it belongs to. */
  function WithUsers(subs: seq<Subscription>, users: seq<User>): (r: seq<SubscriptionRow>)
    ensures |r| == |subs|
    ensures forall k :: 0 <= k < |r| ==> r[k].subscription == subs[k] && r[k].user == FindUser(users, subs[k].userId)
  {
    seq(|subs|, k requires 0 <= k < |subs| => SubscriptionRow(subs[k], FindUser(users, subs[k].userId)))
  }

  /** The rows of one status, or every row when the filter is empty. */
  function WithStatus(subs: seq<Subscription>, status: string): (r: seq<Subscription>)
    ensures forall s :: s in r <==> s in subs && (status == "" || StatusName(s.status) == status)
    ensures status == "" ==> r == subs
  {
    Wrappers.Filter(subs, (s: Subscription) => status == "" || StatusName(s.status) == status)
  }

  /** `GET /subscriptions`: an empty status lists all rows; an unknown one fails in the store. */
  function ListSubscriptions(db: Db, status: string, page: Option<int>, limit: Option<int>): (r: Reply<Listing<SubscriptionRow>>)
    ensures r.StoreError? <==> status != "" && ParseStatus(status).None?
    ensures !r.Refused?
    ensures r.Done? && status == "" ==> r.body.pagination.total == |db.subscriptions|
    ensures r.Done? ==> r.body.pagination == Paging.Paginate(page, limit, r.body.pagination.total)
    // the total counts every row of the status; the page is their window, each with its user
    ensures r.Done? ==>
              var matching := WithStatus(db.subscriptions, status);
              var window := Paging.Window(matching, r.body.pagination.skip, r.body.pagination.limit);
              && r.body.pagination.total == |matching|
              && r.body.rows.Some? == window.Some?
              && (window.Some? ==> r.body.rows.value == WithUsers(window.value, db.users))
    ensures r.Done? && r.body.rows.Some? ==>
              forall k :: 0 <= k < |r.body.rows.value| ==>
                var row := r.body.rows.value[k];
                && row.subscription in db.subscriptions
                && (status == "" || StatusName(row.subscription.status) == status)
                && row.user == FindUser(db.users, row.subscription.userId)
  {
    if status != "" && ParseStatus(status).None? then StoreError
    else
      var matching := WithStatus(db.subscriptions, status);
      var p := Paging.Paginate(page, limit, |matching|);
      var rows := Paging.Window(matching, p.skip, p.limit);
      Done(Listing(if rows.None? then None else Some(WithUsers(rows.value, db.users)), p))
  }

  datatype AdminView = AdminView(id: string, email: string, role: string)

  /** `POST /admins`: super admins only; the password is stored as `hash(password)`. */
  function CreateAdmin(actor: Auth.AdminCtx, admins: seq<Admin>, email: string, password: string, role: string,
                       newId: string, hash: string -> string): (r: (Reply<AdminView>, seq<Admin>))
    ensures actor.role != SuperAdminRole ==> r == (Refused(403), admins)
    ensures actor.role == SuperAdminRole && (email == "" || password == "") ==> r == (Refused(400), admins)
    ensures r.0.Done? <==> actor.role == SuperAdminRole && email != "" && password != ""
                            && forall a :: a in admins ==> a.email != email
    ensures !r.0.Done? ==> r.1 == admins
    ensures r.0.Done? ==>
              && r.1 == admins + [Admin(newId, email, hash(password), r.0.body.role)]
              && r.0.body == AdminView(newId, email, if role != "" then role else DefaultAdminRole)
  {
    if actor.role != SuperAdminRole then (Refused(403), admins)
    else if email == "" || password == "" then (Refused(400), admins)
    else if exists a :: a in admins && a.email == email then (StoreError, admins)
    else
      var stored := Admin(newId, email, hash(password), if role != "" then role else DefaultAdminRole);
      (Done(AdminView(stored.id, stored.email, stored.role)), admins + [stored])
  }

  /** `GET /admins`: super admins only; the password hash is never listed. */
  function ListAdmins(actor: Auth.AdminCtx, admins: seq<Admin>): (r: Reply<seq<AdminView>>)
    ensures r.Refused? <==> actor.role != SuperAdminRole
    ensures r.Refused? ==> r.code == 403
    ensures r.Done? ==> |r.body| == |admins|
    ensures r.Done? ==> forall k :: 0 <= k < |admins| ==>
                          r.body[k] == AdminView(admins[k].id, admins[k].email, admins[k].role)
    ensures !r.StoreError?
  {
    if actor.role != SuperAdminRole then Refused(403)
    else Done(seq(|admins|, k requires 0 <= k < |admins| => AdminView(admins[k].id, admins[k].email, admins[k].role)))
  }

  /** A moderator can neither create nor list admins, whatever the request carries. */
  lemma ModeratorsCannotManageAdmins(actor: Auth.AdminCtx, admins: seq<Admin>, email: string, password: string,
                                     role: string, newId: string, hash: string -> string)
    requires actor.role == DefaultAdminRole
    ensures CreateAdmin(actor, admins, email, password, role, newId, hash) == (Refused(403), admins)
    ensures ListAdmins(actor, admins) == Refused(403)
  {
  }
}

=== FILE: arith.dfy ===
/** Integer helpers whose JavaScript meaning differs from Dafny's built-in operators. */
module Arith {

  function Abs(x: int): (r: int)
    ensures r >= 0
  {
    if x < 0 then -x else x
  }

  /**
   * JavaScript `BigInt` division: the quotient is truncated toward zero, so the
   * remainder takes the sign of the dividend (Dafny's `/` is Euclidean instead).
   */
  function TruncDiv(a: int, b: int): (q: int)
    requires b != 0
    ensures a >= 0 ==> 0 <= a - q * b < Abs(b)
    ensures a < 0 ==> -Abs(b) < a - q * b <= 0
    ensures b > 0 && a >= 0 ==> q >= 0
    ensures b > 0 && a <= 0 ==> q <= 0
  {
    if a >= 0 then
      if b > 0 then a / b else -(a / -b)
    else
      if b > 0 then -((-a) / b) else (-a) / (-b)
  }

  /**
   * For a positive divisor, truncation and Euclidean division agree except on a negative
   * dividend that is not a multiple, where truncation lands one higher (-20000 by 3 is
   * -6666, not -6667).
   */
  lemma TruncDivIsNotEuclidean(a: int, b: int)
    requires b > 0
    ensures a >= 0 || a % b == 0 ==> TruncDiv(a, b) == a / b
    ensures a < 0 && a % b != 0 ==> TruncDiv(a, b) == a / b + 1
  {
    var q, m := a / b, a % b;
    assert a == q * b + m && 0 <= m < b;
    if a < 0 {
      if m == 0 {
        assert -a == -q * b;
        NegatedQuotient(-a, b, -q);
      } else {
        assert -a == (-q - 1) * b + (b - m);
        NegatedQuotient(-a, b, -q - 1);
      }
    }
  }

  /** A quotient pinned down by its remainder. */
  lemma NegatedQuotient(n: int, b: int, q: int)
    requires b > 0 && q * b <= n < q * b + b
    ensures n / b == q
  {
    var d := n / b;
    assert d * b <= n < d * b + b;
    if d > q {
      assert (d - q) * b >= b by { MulAtLeast(d - q, b); }
    } else if d < q {
      assert (q - d) * b >= b by { MulAtLeast(q - d, b); }
    }
  }

  lemma MulAtLeast(k: int, b: int)
    requires k >= 1 && b > 0
    ensures k * b >= b
  {
    assert k * b == (k - 1) * b + b;
  }

  /** `Math.ceil(a / b)` for integers, as exact integer arithmetic. */
  function CeilDiv(a: int, b: int): (q: int)
    requires b != 0
    ensures b > 0 ==> (q - 1) * b < a <= q * b
    ensures b < 0 ==> q * b <= a < (q - 1) * b
  {
    if b > 0 then -((-a) / b) else -(a / -b)
  }

  /** `Math.pow(2, n)` on natural exponents. */
  function Pow2(n: nat): (p: nat)
    ensures p >= 1
  {
    if n == 0 then 1 else 2 * Pow2(n - 1)
  }
}

=== FILE: auth.dfy ===
/**
 * The decision logic of the three middlewares. Token verification is abstracted as a
 * `verify` function from token to verdict; a `JsonWebTokenError` of any kind is `JwtRejected`.
 */
module Auth {
  import opened Wrappers
  import Text
  import opened Store

  /** The claims the middlewares read from a verified token. */
  datatype Claims = Claims(userId: string, adminId: string, isAdmin: bool)
  datatype Verdict = Verified(claims: Claims) | JwtRejected

  /** What a request carries once authenticated (`req.user` / `req.admin`). */
  datatype UserCtx = UserCtx(id: string, walletAddress: string)
  datatype AdminCtx = AdminCtx(id: string, email: string, role: string)

  /** A middleware either calls `next()` with the context attached or fails with a status code. */
  datatype Gate<+T> = Pass(ctx: T) | Reject(code: nat)

  const BearerPrefix := "Bearer "

  /** `req.headers.authorization?.replace('Bearer ', '')`; the empty string is falsy, like a missing header. */
  function Token(header: Option<string>): (t: string)
    ensures header.None? ==> t == ""
    ensures header.Some? && !Text.Contains(header.value, BearerPrefix) ==> t == header.value
  {
    if header.None? then "" else Text.RemoveFirst(header.value, BearerPrefix)
  }

  /** A well-formed header yields exactly the token after the scheme. */
  lemma BearerTokenExtracted(t: string)
    ensures Token(Some(BearerPrefix + t)) == t
  {
    Text.RemoveLeading(BearerPrefix, t);
  }

  /** `authMiddleware`. */
  function Authenticate(header: Option<string>, verify: string -> Verdict, users: seq<User>): (g: Gate<UserCtx>)
    ensures g.Reject? ==> g.code == 401
    ensures Token(header) == "" ==> g == Reject(401)
    ensures g.Pass? <==>
              && Token(header) != ""
              && verify(Token(header)).Verified?
              && FindUser(users, verify(Token(header)).claims.userId).Some?
    // the request carries exactly the stored id and wallet address
    ensures g.Pass? ==> exists u :: u in users && u.id == verify(Token(header)).claims.userId
                                  && g.ctx == UserCtx(u.id, u.walletAddress)
  {
    var token := Token(header);
    if token == "" then Reject(401)
    else
      match verify(token)
      case JwtRejected => Reject(401)
      case Verified(c) =>
        match FindUser(users, c.userId)
        case None => Reject(401)
        case Some(u) => Pass(UserCtx(u.id, u.walletAddress))
  }

  /** The middleware's expiry test: expired only when the period end lies strictly in the past. */
  predicate NotExpired(s: Subscription, now: nat) {
    s.periodEnd.None? || s.periodEnd.value >= now
  }

  /** `subscriptionMiddleware`. */
  function RequireSubscription(user: Option<UserCtx>, subs: seq<Subscription>, now: nat): (g: Gate<UserCtx>)
    ensures user.None? ==> g == Reject(401)
    ensures user.Some? && g.Reject? ==> g.code == 403
    ensures g.Pass? ==> g.ctx == user.value
    ensures g.Pass? <==>
              && user.Some?
              && HasActiveSubscription(subs, user.value.id)
              && NotExpired(SubscriptionOf(subs, user.value.id).value, now)
  {
    if user.None? then Reject(401)
    else
      var s := SubscriptionOf(subs, user.value.id);
      if s.None? || s.value.status != Active then Reject(403)
      else if s.value.periodEnd.Some? && s.value.periodEnd.value < now then Reject(403)
      else Pass(user.value)
  }

  /** `authMiddleware` followed by `subscriptionMiddleware`, as the subscriber-only user routes mount them. */
  function RequireSubscriber(header: Option<string>, verify: string -> Verdict, db: Db, now: nat): (g: Gate<UserCtx>)
    ensures g.Pass? <==>
              && Authenticate(header, verify, db.users).Pass?
              && RequireSubscription(Some(Authenticate(header, verify, db.users).ctx), db.subscriptions, now).Pass?
    ensures g.Reject? ==> g.code == 401 || g.code == 403
  {
    match Authenticate(header, verify, db.users)
    case Reject(code) => Reject(code)
    case Pass(u) => RequireSubscription(Some(u), db.subscriptions, now)
  }

  /** `adminMiddleware`: the admin flag is checked before the admin row is looked up. */
  function AuthenticateAdmin(header: Option<string>, verify: string -> Verdict, admins: seq<Admin>): (g: Gate<AdminCtx>)
    ensures Token(header) == "" ==> g == Reject(401)
    ensures g.Reject? ==> g.code == 401 || g.code == 403
    ensures g == Reject(403) <==>
              Token(header) != "" && verify(Token(header)).Verified? && !verify(Token(header)).claims.isAdmin
    ensures g.Pass? ==> verify(Token(header)).Verified?
    // a verified admin token whose admin row still exists passes
    ensures g.Pass? <==>
              && Token(header) != ""
              && verify(Token(header)).Verified?
              && verify(Token(header)).claims.isAdmin
              && exists a :: a in admins && a.id == verify(Token(header)).claims.adminId
    ensures g.Pass? ==> exists a :: a in admins && a.id == verify(Token(header)).claims.adminId
                                  && g.ctx == AdminCtx(a.id, a.email, a.role)
  {
    var token := Token(header);
    if token == "" then Reject(401)
    else
      match verify(token)
      case JwtRejected => Reject(401)
      case Verified(c) =>
        if !c.isAdmin then Reject(403)
        else
          match FindAdmin(admins, c.adminId)
          case None => Reject(401)
          case Some(a) => Pass(AdminCtx(a.id, a.email, a.role))
  }
}

=== FILE: billing.dfy ===
/** The subscription routes: the access predicate, checkout and the billing portal. */
module Billing {
  import opened Wrappers
  import opened Store
  import Auth

  /** `hasAccess` of the status route: ACTIVE and the period end, if any, strictly in the future. */
  function HasAccess(sub: Option<Subscription>, now: nat): (b: bool)
    ensures sub.None? ==> !b
    ensures b <==> sub.Some? && sub.value.status == Active
                   && (sub.value.periodEnd.None? || sub.value.periodEnd.value > now)
  {
    match sub
    case None => false
    case Some(s) => s.status == Active && (s.periodEnd.None? || s.periodEnd.value > now)
  }

  /**
   * The status route and the subscription middleware agree except at one instant: when the
   * period ends exactly now, the middleware still admits the user while `hasAccess` is false.
   */
  lemma AccessVersusMiddleware(ctx: Auth.UserCtx, subs: seq<Subscription>, now: nat)
    ensures HasAccess(SubscriptionOf(subs, ctx.id), now) ==> Auth.RequireSubscription(Some(ctx), subs, now).Pass?
    ensures Auth.RequireSubscription(Some(ctx), subs, now).Pass? && !HasAccess(SubscriptionOf(subs, ctx.id), now) ==>
              SubscriptionOf(subs, ctx.id).value.periodEnd == Some(now)
  {
  }

  /** The boundary case exists: a row ending exactly now passes the middleware but has no access. */
  lemma BoundaryInstant(ctx: Auth.UserCtx, now: nat)
    ensures var s := Subscription("s", ctx.id, Active, None, None, None, Some(now));
            Auth.RequireSubscription(Some(ctx), [s], now).Pass? && !HasAccess(SubscriptionOf([s], ctx.id), now)
  {
    var s := Subscription("s", ctx.id, Active, None, None, None, Some(now));
    assert SubscriptionOf([s], ctx.id) == Some(s) by {
      assert FindFirst([s], (x: Subscription) => x.userId == ctx.id) == Some(0);
    }
  }

  /** JavaScript truthiness of a nullable string column. */
  predicate IsSet(id: Option<string>) {
    id.Some? && id.value != ""
  }

  /** `subscription.upsert` keyed by user: set the customer id on the user's row, or create the row. */
  function UpsertCustomer(subs: seq<Subscription>, userId: string, customerId: string, newRowId: string): (r: seq<Subscription>)
    ensures SubscriptionOf(r, userId).Some? && SubscriptionOf(r, userId).value.stripeCustomerId == Some(customerId)
    ensures |r| >= |subs|
    ensures forall j :: 0 <= j < |subs| && subs[j].userId != userId ==> r[j] == subs[j]
    ensures SubscriptionOf(subs, userId).None? ==> SubscriptionOf(r, userId).value.status == DefaultStatus
    // update: only the customer id of the user's first row is set
    ensures forall i :: 0 <= i < |subs| && subs[i].userId == userId
                        && (forall k :: 0 <= k < i ==> subs[k].userId != userId) ==>
              r == subs[i := subs[i].(stripeCustomerId := Some(customerId))]
    // create: one new INACTIVE row carrying only the customer id is appended
    ensures (forall j :: 0 <= j < |subs| ==> subs[j].userId != userId) ==>
              r == subs + [Subscription(newRowId, userId, DefaultStatus, Some(customerId), None, None, None)]
  {
    var p := (x: Subscription) => x.userId == userId;
    match FindFirst(subs, p)
    case Some(i) =>
      var r := subs[i := subs[i].(stripeCustomerId := Some(customerId))];
      assert FindFirst(r, p) == Some(i) by {
        FindFirstStable(r, p, i);
      }
      r
    case None =>
      var row := Subscription(newRowId, userId, DefaultStatus, Some(customerId), None, None, None);
      var r := subs + [row];
      assert FindFirst(r, p) == Some(|subs|) by {
        FindFirstStable(r, p, |subs|);
      }
      r
  }

  /** The first match is determined by the matches at and before it. */
  lemma FindFirstStable(ys: seq<Subscription>, p: Subscription -> bool, i: nat)
    requires i < |ys| && p(ys[i])
    requires forall j :: 0 <= j < i ==> !p(ys[j])
    ensures FindFirst(ys, p) == Some(i)
  {
  }

  datatype CheckoutResult =
    | CheckoutFailed(code: nat)
    | CheckoutStarted(customerId: string, createdCustomer: bool, subscriptions: seq<Subscription>)

  /**
   * `POST /checkout`, after authentication: a price id must be configured, the user must exist
   * and must not already be ACTIVE; an existing customer id is reused, otherwise a new customer
   * (`newCustomerId`, created at the payment provider) is stored on the user's row.
   */
  function Checkout(priceId: string, db: Db, ctx: Auth.UserCtx, newCustomerId: string, newRowId: string): (r: CheckoutResult)
    ensures r == CheckoutFailed(500) <==> priceId == ""
    ensures r == CheckoutFailed(404) <==> priceId != "" && FindUser(db.users, ctx.id).None?
    // every other request starts a session
    ensures r.CheckoutStarted? <==>
              priceId != "" && FindUser(db.users, ctx.id).Some? && !HasActiveSubscription(db.subscriptions, ctx.id)
    // an ACTIVE row refuses checkout even when its period has already ended
    ensures r == CheckoutFailed(400) <==>
              priceId != "" && FindUser(db.users, ctx.id).Some? && HasActiveSubscription(db.subscriptions, ctx.id)
    ensures r.CheckoutStarted? ==>
              && SubscriptionOf(r.subscriptions, ctx.id).Some?
              && SubscriptionOf(r.subscriptions, ctx.id).value.stripeCustomerId == Some(r.customerId)
    // a stored customer id is reused and nothing is written
    ensures r.CheckoutStarted? && SubscriptionOf(db.subscriptions, ctx.id).Some?
            && IsSet(SubscriptionOf(db.subscriptions, ctx.id).value.stripeCustomerId) ==>
              && !r.createdCustomer
              && r.customerId == SubscriptionOf(db.subscriptions, ctx.id).value.stripeCustomerId.value
              && r.subscriptions == db.subscriptions
    ensures r.CheckoutStarted? && r.createdCustomer ==> r.customerId == newCustomerId
    // without a stored customer id, the new customer is created and upserted on the user's row
    ensures r.CheckoutStarted? && !(SubscriptionOf(db.subscriptions, ctx.id).Some?
                                    && IsSet(SubscriptionOf(db.subscriptions, ctx.id).value.stripeCustomerId)) ==>
              && r.createdCustomer
              && r.subscriptions == UpsertCustomer(db.subscriptions, ctx.id, newCustomerId, newRowId)
  {
    if priceId == "" then CheckoutFailed(500)
    else if FindUser(db.users, ctx.id).None? then CheckoutFailed(404)
    else
      var sub := SubscriptionOf(db.subscriptions, ctx.id);
      if sub.Some? && sub.value.status == Active then CheckoutFailed(400)
      else if sub.Some? && IsSet(sub.value.stripeCustomerId) then
        CheckoutStarted(sub.value.stripeCustomerId.value, false, db.subscriptions)
      else
        CheckoutStarted(newCustomerId, true, UpsertCustomer(db.subscriptions, ctx.id, newCustomerId, newRowId))
  }

  datatype PortalResult = PortalFailed(code: nat) | PortalOpened(customerId: string)

  /** `POST /portal`: only a user with a stored customer id gets a portal session. */
  function Portal(subs: seq<Subscription>, ctx: Auth.UserCtx): (r: PortalResult)
    ensures r == PortalFailed(404) <==>
              SubscriptionOf(subs, ctx.id).None? || !IsSet(SubscriptionOf(subs, ctx.id).value.stripeCustomerId)
    ensures r.PortalOpened? ==> SubscriptionOf(subs, ctx.id).value.stripeCustomerId == Some(r.customerId)
  {
    var s := SubscriptionOf(subs, ctx.id);
    if s.None? || !IsSet(s.value.stripeCustomerId) then PortalFailed(404)
    else PortalOpened(s.value.stripeCustomerId.value)
  }
}

=== FILE: chain.dfy ===
/**
 * The on-chain state accessor: network selection, the pool-contract address, and four
 * per-key caches with a 10-second freshness window in front of a rate-limited node.
 *
 * The accessors are fail-open: a failed refresh serves the last stored value, however old,
 * or a zero sentinel, and never raises. Time, the cache and the position in the node's
 * reply stream are threaded explicitly as a `World`; the clock only moves by the time the
 * accessors would have slept (network latency is taken as zero).
 */
module Chain {
  import opened Wrappers
  import opened Retry

  datatype Network = Testnet | Mainnet

  /** The environment variables read by the accessor; the empty string stands for "unset". */
  datatype Env = Env(tonNetwork: string, mainnetPoolAddress: string, testnetPoolAddress: string, poolAddress: string)

  /** Environment plus `Address.parse`, an uninterpreted validity test on address strings. */
  datatype Config = Config(env: Env, isAddress: string -> bool)

  /** `TON_NETWORK || 'testnet'`, then only the exact string "mainnet" selects mainnet. */
  function NetworkOf(env: Env): (n: Network)
    ensures n == Mainnet <==> env.tonNetwork == "mainnet"
  {
    var name := if env.tonNetwork != "" then env.tonNetwork else "testnet";
    if name == "mainnet" then Mainnet else Testnet
  }

  predicate IsMainnet(cfg: Config) {
    NetworkOf(cfg.env) == Mainnet
  }

  /** JavaScript `a || b` on environment strings. */
  function OrElse(a: string, b: string): string {
    if a != "" then a else b
  }

  /** The pool contract address: the network-specific variable, else the shared one, if it parses. */
  function PoolAddress(cfg: Config): (a: Option<string>)
    ensures a.Some? ==> a.value != "" && cfg.isAddress(a.value)
    ensures a.Some? ==> a.value == (if IsMainnet(cfg) then OrElse(cfg.env.mainnetPoolAddress, cfg.env.poolAddress)
                                    else OrElse(cfg.env.testnetPoolAddress, cfg.env.poolAddress))
    ensures a.None? && cfg.env.poolAddress != "" && cfg.isAddress(cfg.env.poolAddress) ==>
              (if IsMainnet(cfg) then cfg.env.mainnetPoolAddress else cfg.env.testnetPoolAddress) != ""
  {
    var raw := if IsMainnet(cfg) then OrElse(cfg.env.mainnetPoolAddress, cfg.env.poolAddress)
               else OrElse(cfg.env.testnetPoolAddress, cfg.env.poolAddress);
    if raw == "" || !cfg.isAddress(raw) then None else Some(raw)
  }

  const CacheTtl := 10000
  const PacingDelay := 500
  /** The mainnet snapshot's fixed share price: 1 TON per share. */
  const InitialSharePrice := 1000000000
  /** `getEstimatedAPY`'s fallback of 3.5 %, in basis points. */
  const DefaultApyBasisPoints: nat := 350

  /** The mainnet-only fields of a snapshot. */
  datatype Extras = Extras(stakedToNominator: nat, pendingRewards: nat, withdrawQueue: nat)

  datatype PoolState = PoolState(balance: nat, totalShares: nat, sharePrice: nat, extras: Option<Extras>, isMainnet: bool)

  /** The sentinel served when there is no pool address, or no data at all. */
  function ZeroState(mainnet: bool): PoolState {
    PoolState(0, 0, 0, None, mainnet)
  }

  datatype Entry<+T> = Entry(data: T, timestamp: nat)

  /** An entry is served without refetching while its age is below the TTL. */
  predicate Fresh<T>(e: Entry<T>, now: nat) {
    now - e.timestamp < CacheTtl
  }

  datatype Cache = Cache(
    poolState: Option<Entry<PoolState>>,
    userShares: map<string, Entry<nat>>,
    userValue: map<string, Entry<nat>>,
    userProfit: map<string, Entry<nat>>)

  const EmptyCache := Cache(None, map[], map[], map[])

  /** The accessor's state: its cache, the clock in ms, and the index of the next node call. */
  datatype World = World(cache: Cache, clock: nat, cursor: nat)

  /** The node's replies, one per call, in call order. */
  type Upstream = nat -> Outcome<nat>

  datatype Read<+T> = Read(value: T, world: World)

  /** The world after a retried call: the clock advanced by its sleeps, the cursor by its calls. */
  function After<T>(w: World, run: RetryRun<T>): World {
    World(w.cache, w.clock + run.slept, w.cursor + run.calls)
  }

  // ---------------------------------------------------------------------------
  // Pool snapshot
  // ---------------------------------------------------------------------------

  datatype Fetch =
    | Fetched(data: PoolState, calls: nat, slept: nat)
    | FetchFailed(calls: nat, slept: nat)

  /** One retried node call (`withRetry(() => tonClient.runMethod(...))`), by the index of its first call. */
  type Caller = nat -> RetryRun<nat>

  /** The accessor's node calls, all through the backend retry policy. */
  function ChainCall(up: Upstream): (call: Caller)
    ensures forall at: nat :: 1 <= call(at).calls <= ChainPolicy.maxAttempts
  {
    ChainCallFacts(up);
    (at: nat) => WithRetry(ChainPolicy, up, at)
  }

  lemma ChainCallFacts(up: Upstream)
    ensures forall at: nat :: 1 <= WithRetry(ChainPolicy, up, at).calls <= ChainPolicy.maxAttempts
  {
    forall at: nat
      ensures 1 <= WithRetry(ChainPolicy, up, at).calls <= ChainPolicy.maxAttempts
    {
      assert WithRetry(ChainPolicy, up, at).calls != 0;
    }
  }

  /** Testnet: three paced getters (balance, total shares, share price); any failure aborts the snapshot. */
  function FetchTestnet(call: Caller, start: nat): (f: Fetch)
    ensures f.calls >= call(start).calls
    ensures f.Fetched? ==> f.slept >= 2 * PacingDelay && !f.data.isMainnet && f.data.extras.None?
    // the snapshot is the three getters' replies, and any getter that throws aborts it
    ensures var b := call(start);
            var s := call(start + b.calls);
            var p := call(start + b.calls + s.calls);
            && (f.Fetched? <==> b.result.Ok? && s.result.Ok? && p.result.Ok?)
            && (f.Fetched? ==> f.data.balance == b.result.value && f.data.totalShares == s.result.value
                               && f.data.sharePrice == p.result.value)
  {
    var b := call(start);
    if b.result.Threw? then FetchFailed(b.calls, b.slept)
    else
      var s := call(start + b.calls);
      if s.result.Threw? then FetchFailed(b.calls + s.calls, b.slept + PacingDelay + s.slept)
      else
        var p := call(start + b.calls + s.calls);
        var calls := b.calls + s.calls + p.calls;
        var slept := b.slept + s.slept + p.slept + 2 * PacingDelay;
        if p.result.Threw? then FetchFailed(calls, slept)
        else Fetched(PoolState(b.result.value, s.result.value, p.result.value, None, false), calls, slept)
  }

  /**
   * Three getters that each answer on their first call give the snapshot of the three
   * answers after 1000 ms of pacing; `HealthyCall` shows every healthy getter answers so.
   */
  lemma TestnetSnapshotOfHealthyNode(call: Caller, start: nat)
    requires Quick(call(start)) && Quick(call(start + 1)) && Quick(call(start + 2))
    ensures FetchTestnet(call, start)
         == Fetched(PoolState(call(start).result.value, call(start + 1).result.value, call(start + 2).result.value, None, false), 3, 1000)
  {
  }

  /** A getter run that answered on its first call without waiting. */
  predicate Quick(run: RetryRun<nat>) {
    run.result.Ok? && run.calls == 1 && run.slept == 0
  }

  /** A getter that answers at once costs one call and no wait. */
  lemma HealthyCall(up: Upstream, at: nat)
    requires up(at).Ok?
    ensures ChainCall(up)(at) == RetryRun(up(at), 1, 0)
    ensures Quick(ChainCall(up)(at))
  {
    RetriedThenSucceeds(ChainPolicy, up, at, 0);
  }

  /**
   * Mainnet: the aggregate `poolState` call must succeed; the balance (via `getPoolBalance`)
   * and `availableForStaking` are best-effort and degrade to 0. Total shares is always 0
   * and the share price always 1 TON.
   */
  function FetchMainnet(call: Caller, start: nat): (f: Fetch)
    ensures f.calls >= call(start).calls
    ensures f.Fetched? ==> f.slept >= 2 * PacingDelay
    ensures f.Fetched? ==> f.data.isMainnet && f.data.totalShares == 0 && f.data.sharePrice == InitialSharePrice
    ensures f.Fetched? ==> f.data.extras.Some? && f.data.extras.value.pendingRewards == 0 && f.data.extras.value.withdrawQueue == 0
    ensures f.FetchFailed? <==> call(start).result.Threw?
    // the balance and the stake are the replies of the two best-effort reads, or 0 when one throws
    ensures f.Fetched? ==>
              var bal := call(start + call(start).calls);
              var stake := call(start + call(start).calls + bal.calls);
              && f.data.balance == (if bal.result.Ok? then bal.result.value else 0)
              && f.data.extras.value.stakedToNominator == (if stake.result.Ok? then stake.result.value else 0)
  {
    var st := call(start);
    if st.result.Threw? then FetchFailed(st.calls, st.slept)
    else
      var bal := call(start + st.calls);
      var stake := call(start + st.calls + bal.calls);
      var balance := if bal.result.Ok? then bal.result.value else 0;
      var staked := if stake.result.Ok? then stake.result.value else 0;
      Fetched(PoolState(balance, 0, InitialSharePrice, Some(Extras(staked, 0, 0)), true),
              st.calls + bal.calls + stake.calls, st.slept + bal.slept + stake.slept + 2 * PacingDelay)
  }

  /**
   * A failed `availableForStaking` read, whatever the error and however many retries it took,
   * leaves `stakedToNominator` at 0 without failing the snapshot; the balance is as read.
   */
  lemma MainnetStakeDegradesToZero(call: Caller, start: nat)
    requires call(start).result.Ok?
    requires var bal := call(start + call(start).calls);
             call(start + call(start).calls + bal.calls).result.Threw?
    ensures var f := FetchMainnet(call, start);
            var bal := call(start + call(start).calls);
            f == Fetched(PoolState(if bal.result.Ok? then bal.result.value else 0, 0, InitialSharePrice,
                                   Some(Extras(0, 0, 0)), true), f.calls, f.slept)
  {
  }

  /** What every snapshot served on a network satisfies (the mainnet one never reports shares). */
  predicate SnapshotWf(mainnet: bool, d: PoolState) {
    d.isMainnet == mainnet && (mainnet ==> d.totalShares == 0)
  }

  /** The cache invariant: the stored snapshot, if any, is well formed for the configured network. */
  predicate CacheWf(cfg: Config, c: Cache) {
    c.poolState.Some? ==> SnapshotWf(IsMainnet(cfg), c.poolState.value.data)
  }

  /** The snapshot refresh for the configured network. */
  function Refresh(cfg: Config, up: Upstream, start: nat): Fetch {
    if IsMainnet(cfg) then FetchMainnet(ChainCall(up), start) else FetchTestnet(ChainCall(up), start)
  }

  /** `getPoolState()`. */
  function GetPoolState(cfg: Config, up: Upstream, w: World): (r: Read<PoolState>)
    // no pool address: the zero sentinel, no call, no cache write
    ensures PoolAddress(cfg).None? ==> r == Read(ZeroState(IsMainnet(cfg)), w)
    // a fresh entry is served as is, with no call and no cache change
    ensures PoolAddress(cfg).Some? && w.cache.poolState.Some? && Fresh(w.cache.poolState.value, w.clock) ==>
              r == Read(w.cache.poolState.value.data, w)
    // the per-user maps are never touched
    ensures r.world.cache == w.cache.(poolState := r.world.cache.poolState)
    ensures r.world.clock >= w.clock && r.world.cursor >= w.cursor
    // the entry is either kept or replaced wholesale by the value returned, stamped with the clock
    ensures r.world.cache.poolState == w.cache.poolState
         || r.world.cache.poolState == Some(Entry(r.value, r.world.clock))
    // fail-open: if the entry was kept after a call, the old data (or the sentinel) is served
    ensures r.world.cursor > w.cursor && r.world.cache.poolState == w.cache.poolState ==>
              r.value == (if w.cache.poolState.Some? then w.cache.poolState.value.data else ZeroState(IsMainnet(cfg)))
    ensures CacheWf(cfg, w.cache) ==> CacheWf(cfg, r.world.cache) && SnapshotWf(IsMainnet(cfg), r.value)
    // a missing or stale entry is refreshed: a fetched snapshot is served and stored, a failed one keeps the cache
    ensures PoolAddress(cfg).Some? && !(w.cache.poolState.Some? && Fresh(w.cache.poolState.value, w.clock)) ==>
              var f := Refresh(cfg, up, w.cursor);
              && r.world.cursor == w.cursor + f.calls && r.world.clock == w.clock + f.slept
              && (f.Fetched? ==> r.value == f.data && r.world.cache.poolState == Some(Entry(f.data, r.world.clock)))
              && (f.FetchFailed? ==> r.world.cache == w.cache)
  {
    var mainnet := IsMainnet(cfg);
    if PoolAddress(cfg).None? then Read(ZeroState(mainnet), w)
    else if w.cache.poolState.Some? && Fresh(w.cache.poolState.value, w.clock) then
      Read(w.cache.poolState.value.data, w)
    else
      var f := Refresh(cfg, up, w.cursor);
      var w' := World(w.cache, w.clock + f.slept, w.cursor + f.calls);
      match f
      case Fetched(d, _, _) => Read(d, w'.(cache := w.cache.(poolState := Some(Entry(d, w'.clock)))))
      case FetchFailed(_, _) =>
        Read(if w.cache.poolState.Some? then w.cache.poolState.value.data else ZeroState(mainnet), w')
  }

  /** The node is consulted exactly when a pool address exists and no fresh snapshot is cached. */
  lemma PoolStateCallsIffStale(cfg: Config, up: Upstream, w: World)
    ensures GetPoolState(cfg, up, w).world.cursor != w.cursor <==>
              PoolAddress(cfg).Some? && !(w.cache.poolState.Some? && Fresh(w.cache.poolState.value, w.clock))
  {
  }

  /** After a successful refresh, any read within the TTL returns the same snapshot with no call. */
  lemma PoolStateServedFromCache(cfg: Config, up: Upstream, w: World, up2: Upstream, later: nat, cursor2: nat)
    requires var r := GetPoolState(cfg, up, w); r.world.cache.poolState == Some(Entry(r.value, r.world.clock))
    requires later - GetPoolState(cfg, up, w).world.clock < CacheTtl
    ensures var r := GetPoolState(cfg, up, w);
            var w2 := World(r.world.cache, later, cursor2);
            GetPoolState(cfg, up2, w2) == Read(r.value, w2)
  {
  }

  // ---------------------------------------------------------------------------
  // Per-user accessors
  // ---------------------------------------------------------------------------

  /** The three per-address getters: `userShares`, and the mainnet-only `userValue` and `userProfit`. */
  datatype UserQuery = Shares | Value | Profit

  function UserMap(c: Cache, q: UserQuery): map<string, Entry<nat>> {
    match q
    case Shares => c.userShares
    case Value => c.userValue
    case Profit => c.userProfit
  }

  function WithUserMap(c: Cache, q: UserQuery, m: map<string, Entry<nat>>): (c': Cache)
    ensures UserMap(c', q) == m
    ensures forall q' :: q' != q ==> UserMap(c', q') == UserMap(c, q')
    ensures c'.poolState == c.poolState
  {
    match q
    case Shares => c.(userShares := m)
    case Value => c.(userValue := m)
    case Profit => c.(userProfit := m)
  }

  /** Value and profit are answered only on mainnet; shares on any network with a pool. */
  predicate Served(cfg: Config, q: UserQuery) {
    PoolAddress(cfg).Some? && (q == Shares || IsMainnet(cfg))
  }

  /** `getUserShares`, `getUserValue` and `getUserProfit`: one shape, three caches. */
  function ReadUser(cfg: Config, q: UserQuery, addr: string, up: Upstream, w: World): (r: Read<nat>)
    // gated off: "0" with no call and no cache change
    ensures !Served(cfg, q) ==> r == Read(0, w)
    // a fresh entry is served as is
    ensures Served(cfg, q) && addr in UserMap(w.cache, q) && Fresh(UserMap(w.cache, q)[addr], w.clock) ==>
              r == Read(UserMap(w.cache, q)[addr].data, w)
    // only this query's map, and only at this key, may change
    ensures r.world.cache.poolState == w.cache.poolState
    ensures forall q' :: q' != q ==> UserMap(r.world.cache, q') == UserMap(w.cache, q')
    ensures UserMap(r.world.cache, q) - {addr} == UserMap(w.cache, q) - {addr}
    ensures r.world.clock >= w.clock && r.world.cursor >= w.cursor
    // the key's entry is kept, or replaced wholesale by the value returned, stamped with the clock
    ensures UserMap(r.world.cache, q) == UserMap(w.cache, q)
         || UserMap(r.world.cache, q) == UserMap(w.cache, q)[addr := Entry(r.value, r.world.clock)]
    // fail-open: when nothing was stored, the served value is the old entry's data, or 0
    ensures Served(cfg, q) && UserMap(r.world.cache, q) == UserMap(w.cache, q) && r.world.cursor != w.cursor ==>
              r.value == (if addr in UserMap(w.cache, q) then UserMap(w.cache, q)[addr].data else 0)
    // an address that does not parse never reaches the node
    ensures !cfg.isAddress(addr) ==> r.world.cursor == w.cursor
    // an address that does not parse is served the old entry's data, or 0, with no cache write
    ensures !cfg.isAddress(addr) ==>
              r == Read(if Served(cfg, q) && addr in UserMap(w.cache, q) then UserMap(w.cache, q)[addr].data else 0, w)
    // a missing or stale entry is refetched: a reply is returned and stored, a failure keeps the cache
    ensures Served(cfg, q) && !(addr in UserMap(w.cache, q) && Fresh(UserMap(w.cache, q)[addr], w.clock))
            && cfg.isAddress(addr) ==>
              var run := WithRetry(ChainPolicy, up, w.cursor);
              && r.world.cursor == w.cursor + run.calls && r.world.clock == w.clock + run.slept
              && (run.result.Ok? ==> r.value == run.result.value
                                     && UserMap(r.world.cache, q) == UserMap(w.cache, q)[addr := Entry(r.value, r.world.clock)])
              && (run.result.Threw? ==> r.world.cache == w.cache)
  {
    if !Served(cfg, q) then Read(0, w)
    else
      var m := UserMap(w.cache, q);
      if addr in m && Fresh(m[addr], w.clock) then Read(m[addr].data, w)
      else
        var fallback := if addr in m then m[addr].data else 0;
        if !cfg.isAddress(addr) then Read(fallback, w)
        else
          var run := WithRetry(ChainPolicy, up, w.cursor);
          var w' := After(w, run);
          match run.result
          case Ok(v) => Read(v, w'.(cache := WithUserMap(w.cache, q, m[addr := Entry(v, w'.clock)])))
          case Threw(_) => Read(fallback, w')
  }

  /** The node is consulted exactly when the query is served, the entry is missing or stale, and the address parses. */
  lemma ReadUserCallsIffStale(cfg: Config, q: UserQuery, addr: string, up: Upstream, w: World)
    ensures ReadUser(cfg, q, addr, up, w).world.cursor != w.cursor <==>
              && Served(cfg, q)
              && !(addr in UserMap(w.cache, q) && Fresh(UserMap(w.cache, q)[addr], w.clock))
              && cfg.isAddress(addr)
  {
  }

  /** A never-queried address on a node that only fails is answered with 0, and nothing is cached. */
  lemma UnknownAddressOnFailingNode(cfg: Config, q: UserQuery, addr: string, up: Upstream, w: World)
    requires addr !in UserMap(w.cache, q)
    requires up(w.cursor).Threw? && !IsRetryable(RateLimitSignals, up(w.cursor).error)
    ensures ReadUser(cfg, q, addr, up, w).value == 0
    ensures ReadUser(cfg, q, addr, up, w).world.cache == w.cache
  {
    if Served(cfg, q) && cfg.isAddress(addr) {
      FailsFast(ChainPolicy, up, w.cursor);
    }
  }

  /** `isReadyForNominatorStake()`: false without a pool or off mainnet, and on any failure. */
  function ReadyForNominatorStake(cfg: Config, up: Upstream, w: World): (r: Read<bool>)
    ensures !(PoolAddress(cfg).Some? && IsMainnet(cfg)) ==> r == Read(false, w)
    ensures r.world.cache == w.cache
    ensures r.value ==> exists k :: w.cursor <= k < r.world.cursor && up(k).Ok? && up(k).value != 0
    // with a pool on mainnet: the flag of the retried call's reply, false when it throws
    ensures PoolAddress(cfg).Some? && IsMainnet(cfg) ==>
              var run := WithRetry(ChainPolicy, up, w.cursor);
              r.value == (run.result.Ok? && run.result.value != 0) && r.world.cursor == w.cursor + run.calls
              && r.world == After(w, run)
  {
    if PoolAddress(cfg).None? || !IsMainnet(cfg) then Read(false, w)
    else
      var run := WithRetry(ChainPolicy, up, w.cursor);
      Read(run.result.Ok? && run.result.value != 0, After(w, run))
  }

  /** A node whose flag call answers at once decides readiness by that one reply. */
  lemma ReadyReflectsFlag(cfg: Config, up: Upstream, w: World)
    requires PoolAddress(cfg).Some? && IsMainnet(cfg) && up(w.cursor).Ok?
    ensures var r := ReadyForNominatorStake(cfg, up, w);
            r.value == (up(w.cursor).value != 0) && r.world.cursor == w.cursor + 1
  {
    RetriedThenSucceeds(ChainPolicy, up, w.cursor, 0);
  }

  /** `getEstimatedAPY()` in basis points (the source divides by 100 for percent): 0 off mainnet or without a pool, 350 on failure. */
  function EstimatedApy(cfg: Config, up: Upstream, w: World): (r: Read<nat>)
    ensures !IsMainnet(cfg) || PoolAddress(cfg).None? ==> r == Read(0, w)
    ensures r.world.cache == w.cache
    ensures IsMainnet(cfg) && PoolAddress(cfg).Some? ==>
              r.world.cursor > w.cursor
              && r.value == (if up(r.world.cursor - 1).Ok? then up(r.world.cursor - 1).value else DefaultApyBasisPoints)
    // with a pool on mainnet: the retried call's reply, 350 when it throws, after its calls and sleeps
    ensures IsMainnet(cfg) && PoolAddress(cfg).Some? ==>
              var run := WithRetry<nat>(ChainPolicy, up, w.cursor);
              && r.world == After(w, run)
              && r.value == (if run.result.Ok? then run.result.value else DefaultApyBasisPoints)
  {
    if !IsMainnet(cfg) then Read(0, w)
    else if PoolAddress(cfg).None? then Read(0, w)
    else
      var run := WithRetry<nat>(ChainPolicy, up, w.cursor);
      var apy: nat := if run.result.Ok? then run.result.value else DefaultApyBasisPoints;
      Read(apy, After(w, run))
  }

  /** A node whose APY call answers at once reports that reply after one call and no wait. */
  lemma ApyReflectsReply(cfg: Config, up: Upstream, w: World)
    requires IsMainnet(cfg) && PoolAddress(cfg).Some? && up(w.cursor).Ok?
    ensures EstimatedApy(cfg, up, w) == Read(up(w.cursor).value, w.(cursor := w.cursor + 1))
  {
    RetriedThenSucceeds(ChainPolicy, up, w.cursor, 0);
  }

  /** A failure that is not a rate limit gives the 3.5 % default after one call and no wait. */
  lemma ApyDefaultsOnFailure(cfg: Config, up: Upstream, w: World)
    requires IsMainnet(cfg) && PoolAddress(cfg).Some?
    requires up(w.cursor).Threw? && !IsRetryable(RateLimitSignals, up(w.cursor).error)
    ensures EstimatedApy(cfg, up, w) == Read(DefaultApyBasisPoints, w.(cursor := w.cursor + 1))
  {
    FailsFast(ChainPolicy, up, w.cursor);
  }
}

=== FILE: deploy.dfy ===
/**
 * The deployment script: read the deployer's balance, skip deployment when the contract is
 * already active, otherwise send the deploy transfer and poll for activation up to 30 times.
 * Each node query is one endpoint's scripted reply stream, indexed by a call counter shared
 * by all endpoints; every query goes through the deploy retry policy (5 attempts, 3000 ms
 * base, status 429 only).
 */
module Deploy {
  import opened Wrappers
  import opened Retry

  /** 0.5 TON in nanotons: the minimum balance and the amount sent with the deploy message. */
  const MinDeployBalance: nat := 500000000
  const MaxPolls: nat := 30
  const PollDelay: nat := 3000
  const SendDelay: nat := 2000

  /** The poll loop's result: whether the contract became active, the loop counter, and the node usage. */
  datatype PollRun = PollRun(confirmed: bool, attempts: nat, calls: nat, slept: nat)

  /** One retried state query, by the call index it starts at. */
  type Query = nat -> RetryRun<bool>

  /** The loop's query: "is the contract active?" through the deploy retry policy. */
  function StateQuery(stateUp: nat -> Outcome<bool>): (q: Query)
    ensures forall at: nat :: 1 <= q(at).calls <= DeployPolicy.maxAttempts && q(at).result == stateUp(at + q(at).calls - 1)
  {
    DeployQueryFacts(stateUp);
    (at: nat) => WithRetry(DeployPolicy, stateUp, at)
  }

  lemma DeployQueryFacts(stateUp: nat -> Outcome<bool>)
    ensures forall at: nat :: var r := WithRetry(DeployPolicy, stateUp, at);
              1 <= r.calls <= DeployPolicy.maxAttempts && r.result == stateUp(at + r.calls - 1)
  {
    forall at: nat
      ensures var r := WithRetry(DeployPolicy, stateUp, at);
              1 <= r.calls <= DeployPolicy.maxAttempts && r.result == stateUp(at + r.calls - 1)
    {
      var r := WithRetry(DeployPolicy, stateUp, at);
      assert r.calls > 0;
    }
  }

  /** One state query answers with the reply of its last call. */
  lemma QueryAt(stateUp: nat -> Outcome<bool>, at: nat)
    ensures var q := StateQuery(stateUp);
            q(at).calls >= 1 && q(at).result == stateUp(at + q(at).calls - 1)
  {
  }

  /** Every query makes between one and five node calls. */
  ghost predicate Bounded(q: Query) {
    forall at :: 1 <= q(at).calls <= 5
  }

  /**
   * The poll loop as a recursive definition, from loop counter `attempts` and call index `cursor`.
   * A query that throws counts as "not active yet".
   */
  function PollSpec(q: Query, cursor: nat, attempts: nat): (r: PollRun)
    requires attempts <= MaxPolls
    ensures attempts <= r.attempts <= MaxPolls
    // the script's after-loop test: the counter reached 30 exactly when activation was never seen
    ensures r.confirmed <==> r.attempts < MaxPolls
    decreases MaxPolls - attempts
  {
    if attempts == MaxPolls then PollRun(false, attempts, 0, 0)
    else
      var run := q(cursor);
      if run.result == Ok(true) then PollRun(true, attempts, run.calls, PollDelay + run.slept)
      else
        var rest := PollSpec(q, cursor + run.calls, attempts + 1);
        PollRun(rest.confirmed, rest.attempts, run.calls + rest.calls, PollDelay + run.slept + rest.slept)
  }

  /** A run of the remaining polls, preceded by polls that used `calls` calls and slept `slept` ms. */
  function Preceded(calls: nat, slept: nat, rest: PollRun): PollRun {
    rest.(calls := calls + rest.calls, slept := slept + rest.slept)
  }

  /** One iteration of the loop, unfolded; `next` is the call index after this poll's query. */
  lemma PollStep(q: Query, cursor: nat, attempts: nat, next: nat)
    requires attempts < MaxPolls && next == cursor + q(cursor).calls
    ensures var run := q(cursor);
            PollSpec(q, cursor, attempts) ==
              if run.result == Ok(true) then PollRun(true, attempts, run.calls, PollDelay + run.slept)
              else Preceded(run.calls, PollDelay + run.slept, PollSpec(q, next, attempts + 1))
  {
  }

  lemma PrecededTwice(c1: nat, s1: nat, c2: nat, s2: nat, rest: PollRun)
    ensures Preceded(c1, s1, Preceded(c2, s2, rest)) == Preceded(c1 + c2, s1 + s2, rest)
  {
  }

  /** The loop invariant carried over one unsuccessful poll. */
  lemma Advance(q: Query, target: PollRun, run: RetryRun<bool>,
                calls: nat, slept: nat, at: nat, attempts: nat,
                calls': nat, slept': nat, at': nat, attempts': nat)
    requires attempts < MaxPolls && attempts' == attempts + 1
    requires run == q(at) && run.result != Ok(true)
    requires calls' == calls + run.calls && slept' == slept + PollDelay + run.slept
    requires at' == at + run.calls
    requires target == Preceded(calls, slept, PollSpec(q, at, attempts))
    ensures target == Preceded(calls', slept', PollSpec(q, at', attempts'))
  {
    var rest := PollSpec(q, at', attempts + 1);
    PollStep(q, at, attempts, at');
    PrecededTwice(calls, slept, run.calls, PollDelay + run.slept, rest);
  }

  /** The wait loop as the script runs it; a failed poll, whatever the error, is swallowed. */
  method WaitForDeployment(q: Query, cursor: nat, from: nat) returns (r: PollRun)
    requires from <= MaxPolls
    ensures r == PollSpec(q, cursor, from)
  {
    ghost var target := PollSpec(q, cursor, from);
    var attempts: nat := from;
    var calls: nat := 0;
    var slept: nat := 0;
    var confirmed := false;
    var at: nat := cursor;
    while attempts < MaxPolls && !confirmed
      invariant attempts <= MaxPolls
      invariant !confirmed ==> target == Preceded(calls, slept, PollSpec(q, at, attempts))
      invariant confirmed ==> target == PollRun(true, attempts, calls, slept)
      decreases MaxPolls - attempts, if confirmed then 0 else 1
    {
      var run := q(at);
      ghost var at0, calls0, slept0, attempts0 := at, calls, slept, attempts;
      calls := calls + run.calls;
      slept := slept + PollDelay + run.slept;
      at := at + run.calls;
      if run.result == Ok(true) {
        ConfirmedPoll(q, at0, attempts);
        confirmed := true;
      } else {
        attempts := attempts + 1;
        Advance(q, target, run, calls0, slept0, at0, attempts0, calls, slept, at, attempts);
      }
    }
    if !confirmed {
      ExhaustedPoll(q, at);
    }
    r := PollRun(confirmed, attempts, calls, slept);
  }

  /** The number of loop iterations a poll run went through. */
  function Iterations(r: PollRun, attempts: nat): int {
    r.attempts - attempts + (if r.confirmed then 1 else 0)
  }

  /** An unsuccessful poll passes on the rest's outcome and adds its own calls and sleep. */
  lemma FailedPollFields(q: Query, cursor: nat, attempts: nat, next: nat, r: PollRun, rest: PollRun)
    requires attempts < MaxPolls && q(cursor).result != Ok(true)
    requires next == cursor + q(cursor).calls
    requires r == PollSpec(q, cursor, attempts) && rest == PollSpec(q, next, attempts + 1)
    ensures r.confirmed == rest.confirmed && r.attempts == rest.attempts
    ensures r.calls == q(cursor).calls + rest.calls && r.slept == PollDelay + q(cursor).slept + rest.slept
  {
  }

  /** Once the counter reaches 30 the loop polls no more. */
  lemma ExhaustedPoll(q: Query, cursor: nat)
    ensures PollSpec(q, cursor, MaxPolls) == PollRun(false, MaxPolls, 0, 0)
  {
  }

  /** A poll that sees the contract active ends the loop with this query's calls and one delay. */
  lemma ConfirmedPoll(q: Query, cursor: nat, attempts: nat)
    requires attempts < MaxPolls && q(cursor).result == Ok(true)
    ensures PollSpec(q, cursor, attempts) == PollRun(true, attempts, q(cursor).calls, PollDelay + q(cursor).slept)
  {
  }

  /** The cost bounds of a run confirmed at its first poll. */
  lemma CostConfirmed(r: PollRun, attempts: nat, c: nat, s: nat)
    requires r == PollRun(true, attempts, c, PollDelay + s) && 1 <= c <= 5
    ensures r.slept >= PollDelay * Iterations(r, attempts)
    ensures Iterations(r, attempts) <= r.calls <= 5 * Iterations(r, attempts)
  {
  }

  /** The cost bounds of the remaining polls extend over one more unsuccessful poll. */
  lemma CostStep(r: PollRun, rest: PollRun, attempts: nat, c: nat, s: nat)
    requires r.confirmed == rest.confirmed && r.attempts == rest.attempts
    requires r.calls == c + rest.calls && r.slept == PollDelay + s + rest.slept
    requires 1 <= c <= 5
    requires rest.slept >= PollDelay * Iterations(rest, attempts + 1)
    requires Iterations(rest, attempts + 1) <= rest.calls <= 5 * Iterations(rest, attempts + 1)
    ensures r.slept >= PollDelay * Iterations(r, attempts)
    ensures Iterations(r, attempts) <= r.calls <= 5 * Iterations(r, attempts)
  {
    assert Iterations(r, attempts) == Iterations(rest, attempts + 1) + 1;
  }

  /** Each iteration sleeps 3000 ms before its query and makes between 1 and 5 node calls. */
  lemma {:induction false} PollCost(q: Query, cursor: nat, attempts: nat, r: PollRun)
    requires attempts <= MaxPolls && Bounded(q)
    requires r == PollSpec(q, cursor, attempts)
    ensures r.slept >= PollDelay * Iterations(r, attempts)
    ensures Iterations(r, attempts) <= r.calls <= 5 * Iterations(r, attempts)
    decreases MaxPolls - attempts, 1
  {
    if attempts == MaxPolls {
      ExhaustedPoll(q, cursor);
    } else if q(cursor).result == Ok(true) {
      ConfirmedPoll(q, cursor, attempts);
      CostConfirmed(r, attempts, q(cursor).calls, q(cursor).slept);
    } else {
      FailedPollCost(q, cursor, attempts, r);
    }
  }

  /** The cost bounds over a first poll that does not confirm. */
  lemma {:induction false} FailedPollCost(q: Query, cursor: nat, attempts: nat, r: PollRun)
    requires attempts < MaxPolls && Bounded(q) && q(cursor).result != Ok(true)
    requires r == PollSpec(q, cursor, attempts)
    ensures r.slept >= PollDelay * Iterations(r, attempts)
    ensures Iterations(r, attempts) <= r.calls <= 5 * Iterations(r, attempts)
    decreases MaxPolls - attempts, 0
  {
    var run := q(cursor);
    var next := cursor + run.calls;
    var rest := PollSpec(q, next, attempts + 1);
    FailedPollFields(q, cursor, attempts, next, r, rest);
    PollCost(q, next, attempts + 1, rest);
    CostStep(r, rest, attempts, run.calls, run.slept);
  }

  /** A contract active at the first poll is confirmed after one call and one delay. */
  lemma ActiveAtFirstPoll(stateUp: nat -> Outcome<bool>, cursor: nat)
    requires stateUp(cursor) == Ok(true)
    ensures PollSpec(StateQuery(stateUp), cursor, 0) == PollRun(true, 0, 1, PollDelay)
  {
    assert StateQuery(stateUp)(cursor) == RetryRun(Ok(true), 1, 0) by {
      RetriedThenSucceeds(DeployPolicy, stateUp, cursor, 0);
    }
  }

  /** A query that never confirms makes the loop run out its counter. */
  lemma {:induction false} NeverConfirmedExhausts(q: Query, cursor: nat, attempts: nat, r: PollRun)
    requires attempts <= MaxPolls
    requires forall at :: cursor <= at ==> q(at).result != Ok(true)
    requires r == PollSpec(q, cursor, attempts)
    ensures !r.confirmed && r.attempts == MaxPolls && r.slept >= PollDelay * (MaxPolls - attempts)
    decreases MaxPolls - attempts
  {
    if attempts == MaxPolls {
      ExhaustedPoll(q, cursor);
    } else {
      var run := q(cursor);
      var next := cursor + run.calls;
      var rest := PollSpec(q, next, attempts + 1);
      FailedPollFields(q, cursor, attempts, next, r, rest);
      NeverConfirmedExhausts(q, next, attempts + 1, rest);
    }
  }

  /** Against a node that never reports the contract active, the loop runs all 30 polls and gives up. */
  lemma NeverActiveExhaustsPolls(stateUp: nat -> Outcome<bool>, cursor: nat)
    requires forall k :: cursor <= k ==> stateUp(k) != Ok(true)
    ensures var r := PollSpec(StateQuery(stateUp), cursor, 0);
            !r.confirmed && r.attempts == MaxPolls && r.slept >= PollDelay * MaxPolls
  {
    var q := StateQuery(stateUp);
    NeverActiveQuery(stateUp, cursor);
    NeverConfirmedExhausts(q, cursor, 0, PollSpec(q, cursor, 0));
  }

  /** A state query started at or after `cursor` never confirms when no reply from there on does. */
  lemma NeverActiveQuery(stateUp: nat -> Outcome<bool>, cursor: nat)
    requires forall k :: cursor <= k ==> stateUp(k) != Ok(true)
    ensures forall at :: cursor <= at ==> StateQuery(stateUp)(at).result != Ok(true)
  {
    forall at | cursor <= at
      ensures StateQuery(stateUp)(at).result != Ok(true)
    {
      QueryAt(stateUp, at);
    }
  }

  /** The script's possible endings. */
  datatype Ending =
    | MissingMnemonic
    | Aborted(error: UpstreamError)
    | InsufficientBalance(balance: nat)
    | AlreadyDeployed
    | Submitted(confirmed: bool, polls: nat)

  /** The node endpoints the script queries, and whether the transfer itself is refused. */
  datatype Node = Node(
    balanceUp: nat -> Outcome<nat>,
    stateUp: nat -> Outcome<bool>,
    seqnoUp: nat -> Outcome<nat>,
    sendFails: Option<UpstreamError>)

  /** `transferAttempted`: `sendTransfer` was called, whether or not it then threw. */
  datatype DeployRun = DeployRun(ending: Ending, transferAttempted: bool, calls: nat, slept: nat)

  /** The deployer holds at least 0.5 TON and the contract is not active yet: the script may deploy. */
  predicate MayDeploy(node: Node) {
    var b := WithRetry<nat>(DeployPolicy, node.balanceUp, 0);
    && b.result.Ok? && b.result.value >= MinDeployBalance
    && WithRetry(DeployPolicy, node.stateUp, b.calls).result == Ok(false)
  }

  /** The deployer is funded and the contract is already active. */
  predicate FoundActive(node: Node) {
    var b := WithRetry<nat>(DeployPolicy, node.balanceUp, 0);
    && b.result.Ok? && b.result.value >= MinDeployBalance
    && WithRetry(DeployPolicy, node.stateUp, b.calls).result == Ok(true)
  }

  /** The balance check and the already-deployed check; `None` means the script goes on to deploy. */
  function Preflight(node: Node): (r: (Option<Ending>, nat, nat))
    ensures r.0.None? <==> MayDeploy(node)
    ensures r.0 == Some(AlreadyDeployed) <==> FoundActive(node)
    ensures r.0.Some? && r.0.value.InsufficientBalance? ==>
              r.0.value.balance < MinDeployBalance
              && WithRetry<nat>(DeployPolicy, node.balanceUp, 0).result == Ok(r.0.value.balance)
    ensures r.0.Some? ==> !r.0.value.Submitted? && !r.0.value.MissingMnemonic?
    // the balance read: a throw aborts with its error, a short balance stops with the balance read
    ensures var b := WithRetry<nat>(DeployPolicy, node.balanceUp, 0);
            && (b.result.Threw? ==> r == (Some(Aborted(b.result.error)), b.calls, b.slept))
            && (r.0.Some? && r.0.value.InsufficientBalance? <==> b.result.Ok? && b.result.value < MinDeployBalance)
            && (b.result.Ok? && b.result.value < MinDeployBalance ==>
                  r == (Some(InsufficientBalance(b.result.value)), b.calls, b.slept))
    // the state read, made only for a funded deployer: a throw aborts with its error
    ensures var b := WithRetry<nat>(DeployPolicy, node.balanceUp, 0);
            b.result.Ok? && b.result.value >= MinDeployBalance ==>
              var s := WithRetry(DeployPolicy, node.stateUp, b.calls);
              && r.1 == b.calls + s.calls && r.2 == b.slept + s.slept
              && (s.result.Threw? ==> r.0 == Some(Aborted(s.result.error)))
  {
    var b := WithRetry<nat>(DeployPolicy, node.balanceUp, 0);
    match b.result
    case Threw(e) => (Some(Aborted(e)), b.calls, b.slept)
    case Ok(balance) =>
      if balance < MinDeployBalance then (Some(InsufficientBalance(balance)), b.calls, b.slept)
      else
        var s := WithRetry(DeployPolicy, node.stateUp, b.calls);
        match s.result
        case Threw(e) => (Some(Aborted(e)), b.calls + s.calls, b.slept + s.slept)
        case Ok(active) => (if active then Some(AlreadyDeployed) else None, b.calls + s.calls, b.slept + s.slept)
  }

  /** A full poll run from the first poll sleeps at least 3000 ms for each unsuccessful poll. */
  lemma SubmittedPollBounds(q: Query, cursor: nat, p: PollRun)
    requires Bounded(q) && p == PollSpec(q, cursor, 0)
    ensures p.slept >= PollDelay * p.attempts
  {
    PollCost(q, cursor, 0, p);
  }

  /** The retried `getSeqno` read issued at call index `at`. */
  function SeqnoRead(node: Node, at: nat): RetryRun<nat> {
    WithRetry<nat>(DeployPolicy, node.seqnoUp, at)
  }

  /** Read the seqno, wait 2 s, send the deploy transfer and wait for activation. */
  function Submit(node: Node, calls: nat, slept: nat): (r: DeployRun)
    ensures r.ending.Submitted? || r.ending.Aborted?
    ensures r.ending.Submitted? ==> r.transferAttempted && node.sendFails.None?
    ensures r.ending.Submitted? ==> r.ending.polls <= MaxPolls && (r.ending.confirmed <==> r.ending.polls < MaxPolls)
    ensures r.ending.Submitted? ==> r.slept >= slept + SendDelay + PollDelay * r.ending.polls
    // a failed seqno read aborts before the transfer; a refused transfer aborts after it; otherwise
    // the poll loop runs from the call after the seqno read and its outcome is reported
    ensures SeqnoRead(node, calls).result.Threw? ==>
              r == DeployRun(Aborted(SeqnoRead(node, calls).result.error), false,
                             calls + SeqnoRead(node, calls).calls, slept + SeqnoRead(node, calls).slept)
    ensures SeqnoRead(node, calls).result.Ok? ==>
              r == Deliver(node, calls + SeqnoRead(node, calls).calls, slept + SeqnoRead(node, calls).slept + SendDelay)
  {
    if SeqnoRead(node, calls).result.Threw? then
      DeployRun(Aborted(SeqnoRead(node, calls).result.error), false,
                calls + SeqnoRead(node, calls).calls, slept + SeqnoRead(node, calls).slept)
    else Deliver(node, calls + SeqnoRead(node, calls).calls, slept + SeqnoRead(node, calls).slept + SendDelay)
  }

  /** Send the transfer at call index `sentAt`, after `beforePoll` ms of sleep, and wait for activation. */
  function Deliver(node: Node, sentAt: nat, beforePoll: nat): (r: DeployRun)
    ensures r.transferAttempted && (r.ending.Submitted? || r.ending.Aborted?)
    ensures node.sendFails.Some? ==> r == DeployRun(Aborted(node.sendFails.value), true, sentAt, beforePoll)
    ensures node.sendFails.None? ==>
              var p := PollSpec(StateQuery(node.stateUp), sentAt, 0);
              && r.ending == Submitted(p.confirmed, p.attempts)
              && r.calls == sentAt + p.calls && r.slept == beforePoll + p.slept
    ensures r.ending.Submitted? ==> r.ending.polls <= MaxPolls && (r.ending.confirmed <==> r.ending.polls < MaxPolls)
    ensures r.ending.Submitted? ==> r.slept >= beforePoll + PollDelay * r.ending.polls
  {
    match node.sendFails
    case Some(e) => DeployRun(Aborted(e), true, sentAt, beforePoll)
    case None =>
      var p := PollSpec(StateQuery(node.stateUp), sentAt, 0);
      SubmittedPollBounds(StateQuery(node.stateUp), sentAt, p);
      DeployRun(Submitted(p.confirmed, p.attempts), true, sentAt + p.calls, beforePoll + p.slept)
  }

  /** `main()` of the deployment script; a thrown error ends it through the final `catch`. */
  function RunDeploy(mnemonic: string, node: Node): (r: DeployRun)
    ensures mnemonic == "" ==> r == DeployRun(MissingMnemonic, false, 0, 0)
    ensures r.ending.InsufficientBalance? ==>
              r.ending.balance < MinDeployBalance && WithRetry<nat>(DeployPolicy, node.balanceUp, 0).result == Ok(r.ending.balance)
    // the transfer goes out only for a funded deployer and a contract that is not active yet
    ensures r.transferAttempted ==> mnemonic != "" && MayDeploy(node)
    ensures r.ending == AlreadyDeployed <==> mnemonic != "" && FoundActive(node)
    ensures r.ending.Submitted? ==> r.transferAttempted && r.ending.polls <= MaxPolls
    ensures r.ending.Submitted? ==> (r.ending.confirmed <==> r.ending.polls < MaxPolls)
    ensures r.ending.Submitted? ==> r.slept >= SendDelay + PollDelay * r.ending.polls
    // after a passed preflight the script submits with the preflight's calls and sleep so far;
    // any other preflight ending is the run's ending, with no transfer
    ensures mnemonic != "" && MayDeploy(node) ==> r == Submit(node, Preflight(node).1, Preflight(node).2)
    ensures mnemonic != "" && !MayDeploy(node) ==>
              r == DeployRun(Preflight(node).0.value, false, Preflight(node).1, Preflight(node).2)
  {
    if mnemonic == "" then DeployRun(MissingMnemonic, false, 0, 0)
    else
      var pre := Preflight(node);
      if pre.0.Some? then DeployRun(pre.0.value, false, pre.1, pre.2)
      else Submit(node, pre.1, pre.2)
  }

  /** A funded deployer never sends a second deploy to an active contract. */
  lemma ActiveContractIsNotRedeployed(mnemonic: string, node: Node)
    requires FoundActive(node)
    ensures !RunDeploy(mnemonic, node).transferAttempted
  {
  }
}

=== FILE: paging.dfy ===
/**
 * Query-string paging shared by the user and admin list routes:
 * `page = parseInt(q.page) || 1`, `limit = parseInt(q.limit) || 20`,
 * `skip = (page - 1) * limit`, `pages = Math.ceil(total / limit)`.
 * A parameter arrives already parsed: `None` is `NaN` (missing or unparseable).
 */
module Paging {
  import opened Wrappers
  import Arith

  const DefaultPage := 1
  const DefaultLimit := 20

  /** `parsed || d`: `NaN` and 0 are falsy and fall back to the default. */
  function OrDefault(parsed: Option<int>, d: int): (v: int)
    ensures d != 0 ==> v != 0
    ensures v == d || parsed == Some(v)
    ensures parsed.Some? && parsed.value != 0 ==> v == parsed.value
  {
    if parsed.Some? && parsed.value != 0 then parsed.value else d
  }

  datatype Pagination = Pagination(page: int, limit: int, skip: int, total: nat, pages: int)

  function Paginate(page: Option<int>, limit: Option<int>, total: nat): (p: Pagination)
    ensures p.page != 0 && p.limit != 0
    ensures p.page == OrDefault(page, DefaultPage) && p.limit == OrDefault(limit, DefaultLimit)
    ensures p.total == total
    ensures p.skip + p.limit == p.page * p.limit
    // `pages` is the least page count whose pages hold every row
    ensures p.limit > 0 ==> (p.pages - 1) * p.limit < total <= p.pages * p.limit
  {
    var pg := OrDefault(page, DefaultPage);
    var lim := OrDefault(limit, DefaultLimit);
    Pagination(pg, lim, (pg - 1) * lim, total, Arith.CeilDiv(total, lim))
  }

  lemma MulMonotone(a: int, b: int, c: int)
    requires a <= b && c >= 0
    ensures a * c <= b * c
  {
    assert b * c - a * c == (b - a) * c;
  }

  /** With a positive limit, a page from 1 on starts inside the rows exactly when it is within `pages`. */
  lemma PageStartsInside(page: Option<int>, limit: Option<int>, total: nat)
    requires OrDefault(page, DefaultPage) >= 1 && OrDefault(limit, DefaultLimit) > 0
    ensures var p := Paginate(page, limit, total); p.skip < total <==> p.page <= p.pages
  {
    var p := Paginate(page, limit, total);
    if p.page <= p.pages {
      MulMonotone(p.page - 1, p.pages - 1, p.limit);
    } else {
      MulMonotone(p.pages, p.page - 1, p.limit);
    }
  }

  /** Prisma's `skip`/`take`; a negative skip or take is outside the model. */
  function Window<T>(rows: seq<T>, skip: int, take: int): (r: Option<seq<T>>)
    ensures r.Some? <==> skip >= 0 && take >= 0
    ensures r.Some? ==> |r.value| <= take
    ensures r.Some? ==> forall k :: 0 <= k < |r.value| ==> skip + k < |rows| && r.value[k] == rows[skip + k]
    ensures r.Some? && skip + take <= |rows| ==> |r.value| == take
    ensures r.Some? ==> |r.value| == if skip >= |rows| then 0 else if take < |rows| - skip then take else |rows| - skip
    ensures r.Some? ==> forall x :: x in r.value ==> x in rows
  {
    if skip < 0 || take < 0 then None
    else if skip >= |rows| then Some([])
    else if skip + take <= |rows| then Some(rows[skip..skip + take])
    else Some(rows[skip..])
  }
}

=== FILE: pool_routes.dfy ===
/** The public pool routes: `/info` (live snapshot or persisted stats) and `/position/:address`. */
module PoolRoutes {
  import opened Wrappers
  import opened Chain
  import Store
  import Valuation

  /** 1 TON. */
  const MinDeposit := 1000000000
  /** 10 001 TON. */
  const MinNominatorStake := 10001000000000

  datatype MainnetInfo = MainnetInfo(
    stakedToNominator: nat,
    pendingRewards: nat,
    withdrawQueue: nat,
    estimatedApyBasisPoints: nat,
    readyForNominatorStake: bool,
    minNominatorStake: nat)

  datatype PoolInfo = PoolInfo(
    address: Option<string>,
    balance: nat,
    totalShares: nat,
    sharePrice: nat,
    totalUsers: nat,
    minDeposit: nat,
    network: Network,
    mainnetInfo: Option<MainnetInfo>)

  /**
   * `GET /info`. A snapshot is read whenever a pool address exists, and its fields are
   * never empty strings, so the persisted stats row only matters without an address.
   */
  function Info(cfg: Config, up: Upstream, w: World, stats: Option<Store.PoolStats>): (r: Read<PoolInfo>)
    ensures PoolAddress(cfg).Some? ==>
              var live := GetPoolState(cfg, up, w).value;
              r.value.balance == live.balance && r.value.totalShares == live.totalShares
              && r.value.sharePrice == live.sharePrice
    ensures PoolAddress(cfg).None? ==>
              && r.value.balance == (if stats.Some? then stats.value.totalBalance else 0)
              && r.value.totalShares == (if stats.Some? then stats.value.totalShares else 0)
              && r.value.sharePrice == (if stats.Some? then stats.value.sharePrice else 0)
    ensures r.value.totalUsers == (if stats.Some? then stats.value.totalUsers else 0)
    // the mainnet-only fields appear exactly on mainnet
    ensures r.value.mainnetInfo.Some? <==> IsMainnet(cfg)
    ensures r.value.mainnetInfo.Some? ==> r.value.mainnetInfo.value.minNominatorStake == MinNominatorStake
    // on mainnet the estimate and the readiness are read after the snapshot, in that order, and the
    // three amounts are the live extras (0 when the snapshot has none)
    ensures IsMainnet(cfg) ==>
              var live := GetPoolState(cfg, up, w);
              var w1 := if PoolAddress(cfg).Some? then live.world else w;
              var apy := EstimatedApy(cfg, up, w1);
              var ready := ReadyForNominatorStake(cfg, up, apy.world);
              var m := r.value.mainnetInfo.value;
              && m.estimatedApyBasisPoints == apy.value
              && m.readyForNominatorStake == ready.value
              && r.world == ready.world
              && (if PoolAddress(cfg).Some? && live.value.extras.Some?
                  then m.stakedToNominator == live.value.extras.value.stakedToNominator
                       && m.pendingRewards == live.value.extras.value.pendingRewards
                       && m.withdrawQueue == live.value.extras.value.withdrawQueue
                  else m.stakedToNominator == 0 && m.pendingRewards == 0 && m.withdrawQueue == 0)
    ensures r.value.address == PoolAddress(cfg) && r.value.network == NetworkOf(cfg.env)
    ensures PoolAddress(cfg).None? ==> r.world == w
    ensures CacheWf(cfg, w.cache) ==> CacheWf(cfg, r.world.cache)
  {
    var addr := PoolAddress(cfg);
    var live := GetPoolState(cfg, up, w);
    var w1 := if addr.Some? then live.world else w;
    var balance := if addr.Some? then live.value.balance else if stats.Some? then stats.value.totalBalance else 0;
    var totalShares := if addr.Some? then live.value.totalShares else if stats.Some? then stats.value.totalShares else 0;
    var sharePrice := if addr.Some? then live.value.sharePrice else if stats.Some? then stats.value.sharePrice else 0;
    var totalUsers := if stats.Some? then stats.value.totalUsers else 0;
    if !IsMainnet(cfg) then
      Read(PoolInfo(addr, balance, totalShares, sharePrice, totalUsers, MinDeposit, NetworkOf(cfg.env), None), w1)
    else
      var apy := EstimatedApy(cfg, up, w1);
      var ready := ReadyForNominatorStake(cfg, up, apy.world);
      var ex := if addr.Some? && live.value.extras.Some? then live.value.extras.value else Extras(0, 0, 0);
      var info := MainnetInfo(ex.stakedToNominator, ex.pendingRewards, ex.withdrawQueue, apy.value, ready.value, MinNominatorStake);
      Read(PoolInfo(addr, balance, totalShares, sharePrice, totalUsers, MinDeposit, NetworkOf(cfg.env), Some(info)), ready.world)
  }

  /** `profit` and `profitPercent` are reported in hundredths of a percent (the route divides by 100). */
  datatype Position = Position(
    shares: nat,
    estimatedValue: nat,
    poolBasisPoints: nat,
    profit: nat,
    profitPercent: int,
    network: Network)

  /** `GET /position/:address`. */
  function PositionOf(cfg: Config, addr: string, up: Upstream, w: World): (r: Read<Position>)
    ensures r.value.shares == ReadUser(cfg, Shares, addr, up, w).value
    // the pool share and the testnet value come from the snapshot read after the shares
    ensures var sh := ReadUser(cfg, Shares, addr, up, w);
            var snap := GetPoolState(cfg, up, sh.world).value;
            && r.value.poolBasisPoints == Valuation.PoolBasisPoints(sh.value, snap.totalShares)
            && (!IsMainnet(cfg) ==> r.value.estimatedValue == Valuation.ProRata(snap.balance, sh.value, snap.totalShares))
    // on mainnet the value and profit are the contract's own per-user getters, read in that order
    ensures IsMainnet(cfg) ==>
              var sh := ReadUser(cfg, Shares, addr, up, w);
              var v := ReadUser(cfg, Value, addr, up, GetPoolState(cfg, up, sh.world).world);
              r.value.estimatedValue == v.value && r.value.profit == ReadUser(cfg, Profit, addr, up, v.world).value
    ensures !IsMainnet(cfg) ==>
              && r.value.profit == Valuation.TestnetProfit(r.value.estimatedValue, r.value.shares)
              && r.value.profitPercent == Valuation.TestnetProfitPercent(r.value.estimatedValue, r.value.shares)
    ensures IsMainnet(cfg) ==> r.value.profitPercent == Valuation.MainnetProfitPercent(r.value.estimatedValue, r.value.profit)
    // on mainnet the snapshot never reports shares, so the pool share is always 0
    ensures CacheWf(cfg, w.cache) && IsMainnet(cfg) ==> r.value.poolBasisPoints == 0
    ensures CacheWf(cfg, w.cache) ==> CacheWf(cfg, r.world.cache)
    // without a pool contract every figure is 0 and the node is never called
    ensures PoolAddress(cfg).None? ==> r == Read(Position(0, 0, 0, 0, 0, NetworkOf(cfg.env)), w)
  {
    var sh := ReadUser(cfg, Shares, addr, up, w);
    var ps := GetPoolState(cfg, up, sh.world);
    var state := ps.value;
    var bp := Valuation.PoolBasisPoints(sh.value, state.totalShares);
    if IsMainnet(cfg) then
      var v := ReadUser(cfg, Value, addr, up, ps.world);
      var p := ReadUser(cfg, Profit, addr, up, v.world);
      Read(Position(sh.value, v.value, bp, p.value, Valuation.MainnetProfitPercent(v.value, p.value), Mainnet), p.world)
    else
      var value := Valuation.ProRata(state.balance, sh.value, state.totalShares);
      Read(Position(sh.value, value, bp, Valuation.TestnetProfit(value, sh.value),
                    Valuation.TestnetProfitPercent(value, sh.value), Testnet), ps.world)
  }

  /** On testnet, a holder of no more than all shares is never valued above the pool, nor above 100 %. */
  lemma TestnetPositionBounded(cfg: Config, addr: string, up: Upstream, w: World)
    requires !IsMainnet(cfg)
    requires var sh := ReadUser(cfg, Shares, addr, up, w);
             sh.value <= GetPoolState(cfg, up, sh.world).value.totalShares
    ensures var sh := ReadUser(cfg, Shares, addr, up, w);
            var r := PositionOf(cfg, addr, up, w);
            r.value.estimatedValue <= GetPoolState(cfg, up, sh.world).value.balance
            && r.value.poolBasisPoints <= Valuation.Scale
  {
    var sh := ReadUser(cfg, Shares, addr, up, w);
    var state := GetPoolState(cfg, up, sh.world).value;
    Valuation.ProRataWithinBalance(state.balance, sh.value, state.totalShares);
    Valuation.PoolBasisPointsBounded(sh.value, state.totalShares);
  }
}

=== FILE: pool_sync.dfy ===
/**
 * The reconciliation job: once at start-up and then every minute, persist the pool snapshot
 * and refresh the cached position of up to 100 subscribers. The job reads through the same
 * caches as the routes. Store failures are chosen by the environment through `StoreFaults`;
 * the chain reads are fail-open and never fail.
 */
module PoolSync {
  import opened Wrappers
  import opened Store
  import Chain
  import Valuation

  const SyncInterval := 60000
  const BatchSize := 100

  /** Start time of the `k`-th run when the service starts at `t0` (run 0 is immediate). */
  function RunStart(t0: nat, k: nat): nat {
    t0 + k * SyncInterval
  }

  /** The number of runs started by time `t`, counted without enumerating the runs. */
  function RunsStartedBy(t0: nat, t: nat): nat {
    if t < t0 then 0 else (t - t0) / SyncInterval + 1
  }

  /** The two descriptions of the schedule agree: run `k` has started by `t` exactly when fewer than the count precede it. */
  lemma {:induction false} ScheduleCount(t0: nat, t: nat, k: nat)
    ensures RunStart(t0, k) <= t <==> k < RunsStartedBy(t0, t)
  {
    if t >= t0 {
      var q := (t - t0) / SyncInterval;
      assert q * SyncInterval <= t - t0 < (q + 1) * SyncInterval;
      if k <= q {
        assert k * SyncInterval <= q * SyncInterval;
      } else {
        assert (q + 1) * SyncInterval <= k * SyncInterval;
      }
    }
  }

  /** Which store operations fail during one run. */
  datatype StoreFaults = StoreFaults(statsWriteFails: bool, batchQueryFails: bool, userWriteFails: string -> bool)

  /** The users synced by one run: subscribers whose row is ACTIVE, at most 100, in store order. */
  function Batch(db: Db): (b: seq<User>)
    ensures |b| <= BatchSize
    ensures forall u :: u in b ==> u in db.users && HasActiveSubscription(db.subscriptions, u.id)
    // the first hundred of them, in store order
    ensures var active := ActiveSubscribers(db);
            && |b| == (if |active| <= BatchSize then |active| else BatchSize)
            && forall k :: 0 <= k < |b| ==> b[k] == active[k]
  {
    Take(ActiveSubscribers(db), BatchSize)
  }

  /** The users whose subscription row is ACTIVE, in store order. */
  function ActiveSubscribers(db: Db): (r: seq<User>)
    ensures forall u :: u in r <==> u in db.users && HasActiveSubscription(db.subscriptions, u.id)
  {
    Filter(db.users, (u: User) => HasActiveSubscription(db.subscriptions, u.id))
  }

  /** A user row refreshed by a run that used `snap`, at some instant between `from` and `to`. */
  predicate SyncedWith(u: User, snap: Chain.PoolState, from: nat, to: nat) {
    && u.cachedShares.Some?
    && u.cachedValue == Some(Valuation.ProRata(snap.balance, u.cachedShares.value, snap.totalShares))
    && u.lastSyncAt.Some? && from <= u.lastSyncAt.value <= to
  }

  /** `prisma.user.update` by id: the cached fields of the matching row are replaced. */
  function SetSynced(users: seq<User>, id: string, shares: nat, value: nat, at: nat): (r: seq<User>)
    ensures |r| == |users|
    ensures forall k :: 0 <= k < |r| ==> r[k].id == users[k].id && r[k].walletAddress == users[k].walletAddress
    ensures forall k :: 0 <= k < |r| && users[k].id != id ==> r[k] == users[k]
    ensures forall k :: 0 <= k < |r| && users[k].id == id ==>
              r[k].cachedShares == Some(shares) && r[k].cachedValue == Some(value) && r[k].lastSyncAt == Some(at)
  {
    seq(|users|, k requires 0 <= k < |users| =>
          if users[k].id == id then users[k].(cachedShares := Some(shares), cachedValue := Some(value), lastSyncAt := Some(at))
          else users[k])
  }

  /** Among the first `n` batch users, one with this id exists and its write succeeds. */
  predicate WrittenAmong(batch: seq<User>, n: int, failing: string -> bool, id: string) {
    (exists j :: 0 <= j < n && j < |batch| && batch[j].id == id) && !failing(id)
  }

  /** One more batch user considered: the written set grows by that user exactly when its write succeeds. */
  lemma WrittenStep(batch: seq<User>, i: nat, failing: string -> bool)
    requires i < |batch|
    ensures forall id :: WrittenAmong(batch, i + 1, failing, id) <==>
                           WrittenAmong(batch, i, failing, id) || (id == batch[i].id && !failing(id))
  {
  }

  /** A successful write keeps the loop's picture of the rows: untouched rows as loaded, synced rows valued against `snap`. */
  lemma WriteKeepsSynced(users0: seq<User>, users: seq<User>, synced: set<string>, snap: Chain.PoolState,
                         from: nat, t: nat, id: string, shares: nat)
    requires from <= t
    requires |users| == |users0|
    requires forall k :: 0 <= k < |users| ==> users[k].id == users0[k].id
    requires forall k :: 0 <= k < |users| && users0[k].id !in synced ==> users[k] == users0[k]
    requires forall k :: 0 <= k < |users| && users0[k].id in synced ==> SyncedWith(users[k], snap, from, t)
    ensures var users' := SetSynced(users, id, shares, Valuation.ProRata(snap.balance, shares, snap.totalShares), t);
            && (forall k :: 0 <= k < |users'| && users0[k].id !in synced + {id} ==> users'[k] == users0[k])
            && (forall k :: 0 <= k < |users'| && users0[k].id in synced + {id} ==> SyncedWith(users'[k], snap, from, t))
  {
  }

  /**
   * The `getUserShares` reads of one run, one per batch user in batch order, each issued on the
   * world the previous read left behind.
   */
  function ShareReads(cfg: Chain.Config, up: Chain.Upstream, w0: Chain.World, batch: seq<User>): (r: seq<Chain.Read<nat>>)
    ensures |r| == |batch|
    ensures |batch| > 0 ==> r[0] == Chain.ReadUser(cfg, Chain.Shares, batch[0].walletAddress, up, w0)
    ensures forall j :: 0 < j < |batch| ==>
              r[j] == Chain.ReadUser(cfg, Chain.Shares, batch[j].walletAddress, up, r[j - 1].world)
    decreases |batch|
  {
    if batch == [] then []
    else
      var prev := ShareReads(cfg, up, w0, batch[..|batch| - 1]);
      prev + [Chain.ReadUser(cfg, Chain.Shares, batch[|batch| - 1].walletAddress, up, LastWorld(prev, w0))]
  }

  /** The world after a sequence of reads that started on `w0`. */
  function LastWorld(rs: seq<Chain.Read<nat>>, w0: Chain.World): Chain.World {
    if rs == [] then w0 else rs[|rs| - 1].world
  }

  /** Among the batch users from `j` up to `n`, user `j` is the last one with its id. */
  predicate LastWithId(batch: seq<User>, j: nat, n: int)
    requires j < |batch|
  {
    forall j' :: j < j' < n && j' < |batch| ==> batch[j'].id != batch[j].id
  }

  /** Each row of a batch user with a successful write, the last one with its id among the first `n`, holds the shares read for it. */
  predicate SharesAsRead(users0: seq<User>, users: seq<User>, batch: seq<User>, rs: seq<Chain.Read<nat>>,
                         failing: string -> bool, n: nat)
    requires |users| == |users0| && n <= |batch| && n <= |rs|
  {
    forall k, j :: 0 <= k < |users| && 0 <= j < n && batch[j].id == users0[k].id && !failing(batch[j].id)
                   && LastWithId(batch, j, n) ==>
      users[k].cachedShares == Some(rs[j].value)
  }

  /** One more read extends the reads of the prefix by the read issued on the world they left. */
  lemma ShareReadsStep(cfg: Chain.Config, up: Chain.Upstream, w0: Chain.World, batch: seq<User>, i: nat)
    requires i < |batch|
    ensures ShareReads(cfg, up, w0, batch[..i + 1]) ==
              ShareReads(cfg, up, w0, batch[..i])
              + [Chain.ReadUser(cfg, Chain.Shares, batch[i].walletAddress, up, LastWorld(ShareReads(cfg, up, w0, batch[..i]), w0))]
  {
    assert batch[..i + 1][..i] == batch[..i];
  }

  /** Writing user `i`'s row (or failing to) keeps the shares of the prefix as read. */
  lemma WriteKeepsShares(users0: seq<User>, users: seq<User>, users': seq<User>, batch: seq<User>,
                         rs: seq<Chain.Read<nat>>, failing: string -> bool, i: nat)
    requires |users| == |users0| && i < |batch| && i < |rs|
    requires SharesAsRead(users0, users, batch, rs, failing, i)
    requires forall k :: 0 <= k < |users| ==> users[k].id == users0[k].id
    requires failing(batch[i].id) ==> users' == users
    requires !failing(batch[i].id) ==>
               |users'| == |users| &&
               (forall k :: 0 <= k < |users| && users[k].id != batch[i].id ==> users'[k] == users[k]) &&
               (forall k :: 0 <= k < |users| && users[k].id == batch[i].id ==> users'[k].cachedShares == Some(rs[i].value))
    ensures |users'| == |users0| && SharesAsRead(users0, users', batch, rs, failing, i + 1)
  {
    forall k, j | 0 <= k < |users'| && 0 <= j < i + 1 && batch[j].id == users0[k].id && !failing(batch[j].id)
                  && LastWithId(batch, j, i + 1)
      ensures users'[k].cachedShares == Some(rs[j].value)
    {
      if j < i {
        assert batch[i].id != batch[j].id;
        assert LastWithId(batch, j, i);
      }
    }
  }

  /** What the loop of `syncPool` knows after the first `i` batch users. */
  ghost predicate Progress(cfg: Chain.Config, up: Chain.Upstream, world0: Chain.World, users0: seq<User>,
                     batch: seq<User>, snap: Chain.PoolState, failing: string -> bool, i: nat,
                     users: seq<User>, world: Chain.World, synced: set<string>, shareReads: seq<Chain.Read<nat>>)
  {
    && RowsProgress(world0, users0, batch, snap, failing, i, users, world, synced, shareReads)
    && shareReads == ShareReads(cfg, up, world0, batch[..i]) && world == LastWorld(shareReads, world0)
  }

  /** The rows and the id set after the first `i` batch users, given the reads issued so far. */
  ghost predicate RowsProgress(world0: Chain.World, users0: seq<User>, batch: seq<User>, snap: Chain.PoolState,
                               failing: string -> bool, i: nat, users: seq<User>, world: Chain.World,
                               synced: set<string>, shareReads: seq<Chain.Read<nat>>)
  {
    && i <= |batch|
    && world.clock >= world0.clock && world.cache.poolState == world0.cache.poolState
    && |users| == |users0|
    && (forall k :: 0 <= k < |users| ==> users[k].id == users0[k].id && users[k].walletAddress == users0[k].walletAddress)
    && (forall id :: id in synced <==> WrittenAmong(batch, i, failing, id))
    && (forall k :: 0 <= k < |users| && users0[k].id !in synced ==> users[k] == users0[k])
    && (forall k :: 0 <= k < |users| && users0[k].id in synced ==> SyncedWith(users[k], snap, world0.clock, world.clock))
    && |shareReads| == i && SharesAsRead(users0, users, batch, shareReads, failing, i)
  }

  /** The loop's picture survives one pass, whatever the read returned, given how the rows and the id set changed. */
  lemma ProgressStep(world0: Chain.World, users0: seq<User>,
                     batch: seq<User>, snap: Chain.PoolState, failing: string -> bool, i: nat,
                     users: seq<User>, world: Chain.World, synced: set<string>, shareReads: seq<Chain.Read<nat>>,
                     users': seq<User>, synced': set<string>, sh: Chain.Read<nat>)
    requires i < |batch|
    requires RowsProgress(world0, users0, batch, snap, failing, i, users, world, synced, shareReads)
    requires sh.world.clock >= world.clock && sh.world.cache.poolState == world.cache.poolState
    requires failing(batch[i].id) ==> users' == users && synced' == synced
    requires !failing(batch[i].id) ==>
               && synced' == synced + {batch[i].id}
               && users' == SetSynced(users, batch[i].id, sh.value,
                                      Valuation.ProRata(snap.balance, sh.value, snap.totalShares), sh.world.clock)
    ensures RowsProgress(world0, users0, batch, snap, failing, i + 1, users', sh.world, synced', shareReads + [sh])
  {
    if !failing(batch[i].id) {
      WriteKeepsSynced(users0, users, synced, snap, world0.clock, sh.world.clock, batch[i].id, sh.value);
    }
    WriteKeepsShares(users0, users, users', batch, shareReads + [sh], failing, i);
    WrittenStep(batch, i, failing);
  }

  /**
   * One pass of the loop of `syncPool`: read the user's shares, value them against the run's
   * snapshot and write the row; a failed write is caught and the loop moves on.
   */
  method SyncOne(cfg: Chain.Config, up: Chain.Upstream, world0: Chain.World, users0: seq<User>,
                 batch: seq<User>, snap: Chain.PoolState, failing: string -> bool, i: nat,
                 users: seq<User>, world: Chain.World, synced: set<string>, shareReads: seq<Chain.Read<nat>>)
    returns (users': seq<User>, world': Chain.World, synced': set<string>, shareReads': seq<Chain.Read<nat>>)
    requires i < |batch|
    requires Progress(cfg, up, world0, users0, batch, snap, failing, i, users, world, synced, shareReads)
    ensures Progress(cfg, up, world0, users0, batch, snap, failing, i + 1, users', world', synced', shareReads')
  {
    var u := batch[i];
    var sh := Chain.ReadUser(cfg, Chain.Shares, u.walletAddress, up, world);
    world' := sh.world;
    ShareReadsStep(cfg, up, world0, batch, i);
    shareReads' := shareReads + [sh];
    users', synced' := users, synced;
    if !failing(u.id) {
      users' := SetSynced(users, u.id, sh.value, Valuation.ProRata(snap.balance, sh.value, snap.totalShares), world'.clock);
      synced' := synced + {u.id};
    }
    ProgressStep(world0, users0, batch, snap, failing, i, users, world, synced, shareReads, users', synced', sh);
  }

  /** The loop of `syncPool` over the whole batch. */
  method SyncBatch(cfg: Chain.Config, up: Chain.Upstream, world0: Chain.World, users0: seq<User>,
                   batch: seq<User>, snap: Chain.PoolState, failing: string -> bool)
    returns (users: seq<User>, world: Chain.World, synced: set<string>)
    ensures world.clock >= world0.clock && world.cache.poolState == world0.cache.poolState
    ensures forall id :: id in synced <==> WrittenAmong(batch, |batch|, failing, id)
    ensures |users| == |users0|
    ensures forall k :: 0 <= k < |users| ==> users[k].id == users0[k].id && users[k].walletAddress == users0[k].walletAddress
    ensures forall k :: 0 <= k < |users| && users0[k].id !in synced ==> users[k] == users0[k]
    ensures forall k :: 0 <= k < |users| && users0[k].id in synced ==> SyncedWith(users[k], snap, world0.clock, world.clock)
    // the shares written are the ones read for that user: on a failing node with nothing cached, 0
    ensures var shareReads := ShareReads(cfg, up, world0, batch);
            && world == LastWorld(shareReads, world0)
            && SharesAsRead(users0, users, batch, shareReads, failing, |batch|)
  {
    users, world, synced := users0, world0, {};
    var shareReads: seq<Chain.Read<nat>> := [];
    var i := 0;
    while i < |batch|
      invariant Progress(cfg, up, world0, users0, batch, snap, failing, i, users, world, synced, shareReads)
    {
      users, world, synced, shareReads := SyncOne(cfg, up, world0, users0, batch, snap, failing, i, users, world, synced, shareReads);
      i := i + 1;
    }
    assert batch[..|batch|] == batch;
  }

  /** `syncPool()`. Every error is caught, so a run always completes. */
  method SyncPool(cfg: Chain.Config, up: Chain.Upstream, w: Chain.World, db: Db, faults: StoreFaults)
    returns (db': Db, w': Chain.World, synced: set<string>)
    // the run reads one snapshot, first
    ensures var snap := Chain.GetPoolState(cfg, up, w);
            w'.clock >= snap.world.clock && w'.cache.poolState == snap.world.cache.poolState
    ensures db'.subscriptions == db.subscriptions && db'.transactions == db.transactions && db'.admins == db.admins
    // a failed stats write ends the run before any user is touched
    ensures faults.statsWriteFails ==> db' == db && synced == {}
    ensures !faults.statsWriteFails ==>
              var snap := Chain.GetPoolState(cfg, up, w).value;
              db'.poolStats == Some(PoolStats(snap.balance, snap.totalShares, snap.sharePrice, |db.users|))
    // the snapshot comes through the same cache as the routes': a fresh entry is persisted as is
    ensures !faults.statsWriteFails && Chain.PoolAddress(cfg).Some? && w.cache.poolState.Some?
            && Chain.Fresh(w.cache.poolState.value, w.clock) ==>
              var cached := w.cache.poolState.value.data;
              db'.poolStats == Some(PoolStats(cached.balance, cached.totalShares, cached.sharePrice, |db.users|))
    ensures faults.batchQueryFails ==> synced == {} && db'.users == db.users
    // exactly the batch users whose own write succeeded are synced: one failure does not stop the others
    ensures !faults.statsWriteFails && !faults.batchQueryFails ==>
              forall id :: id in synced <==> WrittenAmong(Batch(db), |Batch(db)|, faults.userWriteFails, id)
    // each synced row holds the `getUserShares` read issued for it, in batch order after the snapshot
    ensures !faults.statsWriteFails && !faults.batchQueryFails ==>
              var ps := Chain.GetPoolState(cfg, up, w);
              var rs := ShareReads(cfg, up, ps.world, Batch(db));
              && w' == LastWorld(rs, ps.world)
              && |db'.users| == |db.users|
              && SharesAsRead(db.users, db'.users, Batch(db), rs, faults.userWriteFails, |Batch(db)|)
    ensures forall id :: id in synced ==> HasActiveSubscription(db.subscriptions, id)
    ensures |db'.users| == |db.users|
    ensures forall k :: 0 <= k < |db.users| ==>
              db'.users[k].id == db.users[k].id && db'.users[k].walletAddress == db.users[k].walletAddress
    ensures forall k :: 0 <= k < |db.users| && db.users[k].id !in synced ==> db'.users[k] == db.users[k]
    ensures forall k :: 0 <= k < |db.users| && db.users[k].id in synced ==>
              SyncedWith(db'.users[k], Chain.GetPoolState(cfg, up, w).value, w.clock, w'.clock)
    ensures Chain.CacheWf(cfg, w.cache) ==> Chain.CacheWf(cfg, w'.cache)
  {
    var ps := Chain.GetPoolState(cfg, up, w);
    synced := {};
    if faults.statsWriteFails {
      return db, ps.world, synced;
    }
    var snap := ps.value;
    db' := db.(poolStats := Some(PoolStats(snap.balance, snap.totalShares, snap.sharePrice, |db.users|)));
    if faults.batchQueryFails {
      return db', ps.world, synced;
    }
    var batch := Batch(db);
    var users;
    users, w', synced := SyncBatch(cfg, up, ps.world, db.users, batch, snap, faults.userWriteFails);
    forall id | id in synced
      ensures HasActiveSubscription(db.subscriptions, id)
    {
      var j :| 0 <= j < |batch| && batch[j].id == id;
      assert batch[j] in batch;
    }
    db' := db'.(users := users);
  }

  /** On mainnet the snapshot reports no shares, so every synced user is valued at 0. */
  lemma MainnetSyncValuesZero(cfg: Chain.Config, up: Chain.Upstream, w: Chain.World, u: User, to: nat)
    requires Chain.IsMainnet(cfg) && Chain.CacheWf(cfg, w.cache)
    requires SyncedWith(u, Chain.GetPoolState(cfg, up, w).value, w.clock, to)
    ensures u.cachedValue == Some(0)
  {
  }
}

=== FILE: retry.dfy ===
/**
 * The retry combinator `withRetry`, which exists twice in the repository with different
 * parameters: the backend's chain accessor retries any rate-limit signal up to 3 times
 * with a 2000 ms base delay, the deployment script retries only HTTP 429 up to 5 times
 * with a 3000 ms base delay. Both are instances of one parameterised policy here.
 *
 * The wrapped call `fn` is an upstream given as a scripted stream of outcomes: the k-th
 * invocation of the remote service returns `up(k)`. Sleeping is not performed; the time
 * the combinator would have slept is accumulated in a counter.
 */
module Retry {
  import opened Wrappers
  import Text
  import Arith

  /** The parts of a thrown JavaScript error the classifiers look at. */
  datatype UpstreamError = UpstreamError(status: Option<int>, message: Option<string>, code: Option<string>)

  /** The error thrown after the loop when no attempt was allowed at all. */
  const MaxRetriesExceeded := UpstreamError(None, Some("Max retries exceeded"), None)

  datatype Outcome<+T> = Ok(value: T) | Threw(error: UpstreamError)

  /** Which errors count as "rate limited" and are therefore retried. */
  datatype Classifier =
    | RateLimitSignals  // backend: status 429, a message mentioning 429, or code ERR_BAD_REQUEST
    | Status429Only     // deployment script: `response.status === 429` only

  predicate IsRetryable(c: Classifier, e: UpstreamError) {
    match c
    case RateLimitSignals =>
      || e.status == Some(429)
      || (e.message.Some? && Text.Contains(e.message.value, "429"))
      || e.code == Some("ERR_BAD_REQUEST")
    case Status429Only => e.status == Some(429)
  }

  /** An outcome the combinator answers with a retry (under a budget that allows one). */
  predicate Retried<T>(c: Classifier, o: Outcome<T>) {
    o.Threw? && IsRetryable(c, o.error)
  }

  datatype Policy = Policy(maxAttempts: nat, baseDelay: nat, classifier: Classifier)

  /** `withRetry(fn)` in the backend chain accessor: defaults `maxRetries = 3`, `baseDelay = 2000`. */
  const ChainPolicy := Policy(3, 2000, RateLimitSignals)

  /** `withRetry(fn)` in the deployment script: defaults `maxRetries = 5`, `baseDelay = 3000`. */
  const DeployPolicy := Policy(5, 3000, Status429Only)

  /** What one use of the combinator did: its outcome, how many calls it made, how long it slept. */
  datatype RetryRun<+T> = RetryRun(result: Outcome<T>, calls: nat, slept: nat)

  /** Total sleep after `n` retried failures: the geometric sum of `baseDelay * 2^attempt`. */
  function SleptAfter(p: Policy, n: nat): nat {
    p.baseDelay * (Arith.Pow2(n) - 1)
  }

  /** The loop of `withRetry` from iteration `attempt` on, having slept `slept` so far. */
  function Attempts<T>(p: Policy, up: nat -> Outcome<T>, start: nat, attempt: nat, slept: nat): (r: RetryRun<T>)
    requires slept == SleptAfter(p, attempt)
    requires attempt == 0 || attempt < p.maxAttempts
    ensures attempt <= r.calls <= p.maxAttempts || (p.maxAttempts == 0 && r.calls == 0)
    ensures r.calls == 0 <==> p.maxAttempts == 0
    ensures r.calls == 0 ==> r.result == Threw(MaxRetriesExceeded) && r.slept == 0
    ensures r.calls > 0 ==> r.result == up(start + r.calls - 1) && r.slept == SleptAfter(p, r.calls - 1)
    ensures r.calls > 0 && r.result.Threw? ==>
              !IsRetryable(p.classifier, r.result.error) || r.calls == p.maxAttempts
    ensures forall j :: start + attempt <= j < start + r.calls - 1 ==> Retried(p.classifier, up(j))
    decreases p.maxAttempts - attempt
  {
    if attempt >= p.maxAttempts then
      RetryRun(Threw(MaxRetriesExceeded), 0, slept)
    else
      match up(start + attempt)
      case Ok(v) => RetryRun(Ok(v), attempt + 1, slept)
      case Threw(e) =>
        if IsRetryable(p.classifier, e) && attempt < p.maxAttempts - 1 then
          Attempts(p, up, start, attempt + 1, slept + p.baseDelay * Arith.Pow2(attempt))
        else
          RetryRun(Threw(e), attempt + 1, slept)
  }

  /**
   * `withRetry(fn, maxRetries, baseDelay)`: call the upstream until it succeeds, fails with
   * an error the classifier does not retry, or the attempt budget is spent. The outcome
   * returned is the last call's, unchanged; every earlier call was a retried failure.
   */
  function WithRetry<T>(p: Policy, up: nat -> Outcome<T>, start: nat): (r: RetryRun<T>)
    ensures r.calls <= p.maxAttempts
    ensures r.calls == 0 <==> p.maxAttempts == 0
    ensures r.calls == 0 ==> r.result == Threw(MaxRetriesExceeded) && r.slept == 0
    ensures r.calls > 0 ==> r.result == up(start + r.calls - 1) && r.slept == SleptAfter(p, r.calls - 1)
    ensures r.calls > 0 && r.result.Threw? ==>
              !IsRetryable(p.classifier, r.result.error) || r.calls == p.maxAttempts
    ensures forall j :: start <= j < start + r.calls - 1 ==> Retried(p.classifier, up(j))
  {
    Attempts(p, up, start, 0, 0)
  }

  /** `k` retried failures followed by a success, within budget: the success, after `k + 1` calls and `baseDelay * (2^k - 1)` ms of waiting. */
  lemma RetriedThenSucceeds<T>(p: Policy, up: nat -> Outcome<T>, start: nat, k: nat)
    requires k < p.maxAttempts
    requires forall j :: start <= j < start + k ==> Retried(p.classifier, up(j))
    requires up(start + k).Ok?
    ensures WithRetry(p, up, start) == RetryRun(up(start + k), k + 1, SleptAfter(p, k))
  {
  }

  /** A failure the classifier does not retry is rethrown at once: one call, no waiting. */
  lemma FailsFast<T>(p: Policy, up: nat -> Outcome<T>, start: nat)
    requires p.maxAttempts > 0
    requires up(start).Threw? && !IsRetryable(p.classifier, up(start).error)
    ensures WithRetry(p, up, start) == RetryRun(up(start), 1, 0)
  {
  }

  /** When every attempt is rate limited, the last error is rethrown after the whole budget. */
  lemma ExhaustsBudget<T>(p: Policy, up: nat -> Outcome<T>, start: nat)
    requires p.maxAttempts > 0
    requires forall j :: start <= j < start + p.maxAttempts ==> Retried(p.classifier, up(j))
    ensures WithRetry(p, up, start)
         == RetryRun(up(start + p.maxAttempts - 1), p.maxAttempts, SleptAfter(p, p.maxAttempts - 1))
  {
  }

  /** Two rate limits then success under the backend policy cost exactly 2000 + 4000 ms. */
  lemma ChainBackoffSchedule<T>(up: nat -> Outcome<T>, start: nat)
    requires Retried(RateLimitSignals, up(start)) && Retried(RateLimitSignals, up(start + 1))
    requires up(start + 2).Ok?
    ensures WithRetry(ChainPolicy, up, start) == RetryRun(up(start + 2), 3, 6000)
  {
    RetriedThenSucceeds(ChainPolicy, up, start, 2);
    assert Arith.Pow2(2) == 4;
  }

  /** The deployment script retries a strict subset of what the backend retries. */
  lemma DeployRetriesFewer(e: UpstreamError)
    ensures IsRetryable(Status429Only, e) ==> IsRetryable(RateLimitSignals, e)
    ensures var bad := UpstreamError(Some(400), None, Some("ERR_BAD_REQUEST"));
            IsRetryable(RateLimitSignals, bad) && !IsRetryable(Status429Only, bad)
  {
  }

  /**
   * Any error whose message has "429" somewhere in it, without a 429 status, is a rate limit
   * for the backend but not for the script.
   */
  lemma MessageMentioning429(e: UpstreamError, at: int)
    requires e.status != Some(429)
    requires e.message.Some? && Text.OccursAt(e.message.value, "429", at)
    ensures IsRetryable(RateLimitSignals, e) && !IsRetryable(Status429Only, e)
  {
    Text.ContainsIffOccurs(e.message.value, "429");
  }
}

=== FILE: store.dfy ===
/**
 * The persisted records the routes read and write, as immutable tables.
 * A table is a sequence in storage order; `findFirst` returns the earliest match.
 */
module Store {
  import opened Wrappers

  datatype Status = Active | Canceled | PastDue | Inactive

  /** The status a subscription row gets when it is first created (the schema default). */
  const DefaultStatus := Inactive

  datatype User = User(
    id: string,
    walletAddress: string,
    cachedShares: Option<nat>,
    cachedValue: Option<nat>,
    lastSyncAt: Option<nat>)

  datatype Subscription = Subscription(
    id: string,
    userId: string,
    status: Status,
    stripeCustomerId: Option<string>,
    stripeSubscriptionId: Option<string>,
    periodStart: Option<nat>,
    periodEnd: Option<nat>)

  datatype TxType = Deposit | Withdraw
  datatype TxStatus = Pending | Confirmed | Failed
  datatype Transaction = Transaction(id: string, userId: string, kind: TxType, status: TxStatus, amount: nat)

  datatype Admin = Admin(id: string, email: string, passwordHash: string, role: string)

  /** The singleton `PoolStats` row. */
  datatype PoolStats = PoolStats(totalBalance: nat, totalShares: nat, sharePrice: nat, totalUsers: nat)

  datatype Db = Db(
    users: seq<User>,
    subscriptions: seq<Subscription>,
    transactions: seq<Transaction>,
    admins: seq<Admin>,
    poolStats: Option<PoolStats>)

  function FindUser(users: seq<User>, id: string): (u: Option<User>)
    ensures u.Some? ==> u.value in users && u.value.id == id
    ensures u.None? ==> forall x :: x in users ==> x.id != id
  {
    match FindFirst(users, (x: User) => x.id == id)
    case Some(i) => Some(users[i])
    case None => None
  }

  /** The subscription row of a user (`userId` is unique in the schema). */
  function SubscriptionOf(subs: seq<Subscription>, userId: string): (s: Option<Subscription>)
    ensures s.Some? ==> s.value in subs && s.value.userId == userId
    ensures s.None? ==> forall x :: x in subs ==> x.userId != userId
  {
    match FindFirst(subs, (x: Subscription) => x.userId == userId)
    case Some(i) => Some(subs[i])
    case None => None
  }

  function FindAdmin(admins: seq<Admin>, id: string): (a: Option<Admin>)
    ensures a.Some? ==> a.value in admins && a.value.id == id
    ensures a.None? ==> forall x :: x in admins ==> x.id != id
  {
    match FindFirst(admins, (x: Admin) => x.id == id)
    case Some(i) => Some(admins[i])
    case None => None
  }

  /** A user subscribes when its subscription row is ACTIVE (expiry is not consulted). */
  predicate HasActiveSubscription(subs: seq<Subscription>, userId: string) {
    var s := SubscriptionOf(subs, userId);
    s.Some? && s.value.status == Active
  }

  /** The transaction rows of one user, in store order. */
  function TransactionsOf(txs: seq<Transaction>, userId: string): (r: seq<Transaction>)
    ensures forall t :: t in r <==> t in txs && t.userId == userId
    ensures |r| <= |txs|
  {
    Filter(txs, (t: Transaction) => t.userId == userId)
  }

  /** The enum names the API filters and reports by. */
  function StatusName(s: Status): string {
    match s
    case Active => "ACTIVE"
    case Canceled => "CANCELED"
    case PastDue => "PAST_DUE"
    case Inactive => "INACTIVE"
  }
}

=== FILE: text.dfy ===
/** The two string operations the source relies on: `includes` and a single `replace`. */
module Text {

  /** JavaScript's `s.includes(t)`: `t` occurs in `s` as a contiguous block. */
  predicate Contains(s: string, t: string)
    decreases |s|
  {
    |t| <= |s| && (s[..|t|] == t || Contains(s[1..], t))
  }

  /** `t` occurs in `s` starting at position `i`. */
  predicate OccursAt(s: string, t: string, i: int) {
    0 <= i && i + |t| <= |s| && s[i..i + |t|] == t
  }

  /** `Contains` agrees with the positional definition of an occurrence. */
  lemma {:induction false} ContainsIffOccurs(s: string, t: string)
    ensures Contains(s, t) <==> exists i :: OccursAt(s, t, i)
    decreases |s|
  {
    if |t| > |s| {
      assert forall i :: !OccursAt(s, t, i);
    } else if s[..|t|] == t {
      assert OccursAt(s, t, 0);
    } else {
      ContainsIffOccurs(s[1..], t);
      if Contains(s[1..], t) {
        var i :| OccursAt(s[1..], t, i);
        assert s[i + 1..i + 1 + |t|] == s[1..][i..i + |t|];
        assert OccursAt(s, t, i + 1);
      }
      if exists i :: OccursAt(s, t, i) {
        var i :| OccursAt(s, t, i);
        assert i != 0;
        assert s[1..][i - 1..i - 1 + |t|] == s[i..i + |t|];
        assert OccursAt(s[1..], t, i - 1);
      }
    }
  }

  /** JavaScript's `s.replace(pat, "")` with a string pattern: drop the FIRST occurrence of `pat`. */
  function RemoveFirst(s: string, pat: string): (r: string)
    requires |pat| > 0
    ensures !Contains(s, pat) ==> r == s
    ensures Contains(s, pat) ==> |r| + |pat| == |s|
    decreases |s|
  {
    if |s| < |pat| then s
    else if s[..|pat|] == pat then s[|pat|..]
    else [s[0]] + RemoveFirst(s[1..], pat)
  }

  /** The occurrence removed is the first one: everything before and after it is kept. */
  lemma RemoveFirstDropsFirstOccurrence(s: string, pat: string)
    requires |pat| > 0 && Contains(s, pat)
    ensures exists i :: && OccursAt(s, pat, i)
                        && (forall j :: 0 <= j < i ==> !OccursAt(s, pat, j))
                        && RemoveFirst(s, pat) == s[..i] + s[i + |pat|..]
  {
    var i := FirstOccurrence(s, pat);
  }

  /** The position of the first occurrence, which is where `RemoveFirst` cuts. */
  lemma {:induction false} FirstOccurrence(s: string, pat: string) returns (i: nat)
    requires |pat| > 0 && Contains(s, pat)
    ensures OccursAt(s, pat, i)
    ensures forall j :: 0 <= j < i ==> !OccursAt(s, pat, j)
    ensures RemoveFirst(s, pat) == s[..i] + s[i + |pat|..]
    decreases |s|
  {
    if s[..|pat|] == pat {
      i := 0;
      assert s[..0] + s[|pat|..] == s[|pat|..];
    } else {
      var k := FirstOccurrence(s[1..], pat);
      i := k + 1;
      ShiftedOccurrence(s, pat, i);
      forall j | 0 <= j < i
        ensures !OccursAt(s, pat, j)
      {
        if j > 0 {
          ShiftedOccurrence(s, pat, j);
        }
      }
      CutAfterHead(s, pat, k);
    }
  }

  /** Past the head, occurrences in `s` are those of its tail, shifted by one. */
  lemma ShiftedOccurrence(s: string, pat: string, j: int)
    requires |s| > 0 && j >= 1
    ensures OccursAt(s, pat, j) <==> OccursAt(s[1..], pat, j - 1)
  {
    if j + |pat| <= |s| {
      assert s[j..j + |pat|] == s[1..][j - 1..j - 1 + |pat|];
    }
  }

  /** When the pattern does not lead, the cut in the tail is the cut in the whole, one further on. */
  lemma CutAfterHead(s: string, pat: string, k: nat)
    requires |pat| <= |s| && s[..|pat|] != pat
    requires k + |pat| <= |s| - 1
    requires RemoveFirst(s[1..], pat) == s[1..][..k] + s[1..][k + |pat|..]
    ensures RemoveFirst(s, pat) == s[..k + 1] + s[k + 1 + |pat|..]
  {
    var t := s[1..];
    var head, tail := t[..k], t[k + |pat|..];
    assert RemoveFirst(s, pat) == [s[0]] + (head + tail);
    ConcatAssoc([s[0]], head, tail);
    HeadThenTake(s, k);
    DropOfTail(s, k + |pat|);
  }

  lemma HeadThenTake(s: string, k: nat)
    requires k < |s|
    ensures [s[0]] + s[1..][..k] == s[..k + 1]
  {
    forall m | 0 <= m < k + 1
      ensures ([s[0]] + s[1..][..k])[m] == s[..k + 1][m]
    {
    }
  }

  lemma DropOfTail(s: string, n: nat)
    requires n < |s|
    ensures s[1..][n..] == s[n + 1..]
  {
    forall m | 0 <= m < |s| - n - 1
      ensures s[1..][n..][m] == s[n + 1..][m]
    {
    }
  }

  lemma ConcatAssoc(a: string, b: string, c: string)
    ensures a + (b + c) == (a + b) + c
  {
    forall m | 0 <= m < |a| + |b| + |c|
      ensures (a + (b + c))[m] == ((a + b) + c)[m]
    {
    }
  }

  /** A leading occurrence is the first one, so it is the one removed. */
  lemma RemoveLeading(pat: string, rest: string)
    requires |pat| > 0
    ensures RemoveFirst(pat + rest, pat) == rest
  {
    assert (pat + rest)[..|pat|] == pat;
    assert (pat + rest)[|pat|..] == rest;
  }
}

=== FILE: user_routes.dfy ===
/**
 * The signed-in user's routes: `/me` (authentication only), `/transactions` and
 * `/dashboard` (authentication and subscription). Transaction rows are kept in the
 * order the store returns them, newest first.
 */
module UserRoutes {
  import opened Wrappers
  import opened Store
  import opened Auth
  import Chain
  import Valuation
  import Paging

  /** A route either answers (having read through the chain caches) or refuses with an HTTP code. */
  datatype Answer<+T> = Served(body: T, world: Chain.World) | Refused(code: nat)

  datatype SubscriptionSummary = SubscriptionSummary(status: Status, periodEnd: Option<nat>)
  datatype MeView = MeView(
    id: string,
    walletAddress: string,
    shares: nat,
    estimatedValue: nat,
    subscription: Option<SubscriptionSummary>)

  /** The live share count and a pool snapshot, read in that order as every user route does. */
  datatype Holding = Holding(shares: nat, pool: Chain.PoolState, world: Chain.World)

  function HoldingOf(cfg: Chain.Config, wallet: string, up: Chain.Upstream, w: Chain.World): (h: Holding)
    ensures h.shares == Chain.ReadUser(cfg, Chain.Shares, wallet, up, w).value
    // the snapshot is read after the shares, through the same cache
    ensures var sh := Chain.ReadUser(cfg, Chain.Shares, wallet, up, w);
            h.pool == Chain.GetPoolState(cfg, up, sh.world).value && h.world == Chain.GetPoolState(cfg, up, sh.world).world
    ensures Chain.CacheWf(cfg, w.cache) ==> Chain.CacheWf(cfg, h.world.cache)
  {
    var sh := Chain.ReadUser(cfg, Chain.Shares, wallet, up, w);
    var ps := Chain.GetPoolState(cfg, up, sh.world);
    Holding(sh.value, ps.value, ps.world)
  }

  /**
   * `GET /me`. The route looks the user up a second time; in one snapshot of the store
   * that lookup finds the row the middleware found, so its 404 answer cannot occur and
   * the middleware's context stands for the row.
   */
  function Me(header: Option<string>, verify: string -> Verdict, db: Db,
              cfg: Chain.Config, up: Chain.Upstream, w: Chain.World): (r: Answer<MeView>)
    ensures r.Refused? <==> Authenticate(header, verify, db.users).Reject?
    ensures r.Refused? ==> r.code == 401
    ensures r.Served? ==>
              var u := Authenticate(header, verify, db.users).ctx;
              var h := HoldingOf(cfg, u.walletAddress, up, w);
              && r.body.id == u.id && r.body.walletAddress == u.walletAddress
              && r.body.shares == h.shares
              && r.body.estimatedValue == Valuation.ProRata(h.pool.balance, h.shares, h.pool.totalShares)
              && (r.body.subscription.Some? <==> SubscriptionOf(db.subscriptions, u.id).Some?)
              && r.world == h.world
    // the summary is the row's own status and period end
    ensures r.Served? ==>
              var u := Authenticate(header, verify, db.users).ctx;
              SubscriptionOf(db.subscriptions, u.id).Some? ==>
                var s := SubscriptionOf(db.subscriptions, u.id).value;
                r.body.subscription == Some(SubscriptionSummary(s.status, s.periodEnd))
  {
    match Authenticate(header, verify, db.users)
    case Reject(code) => Refused(code)
    case Pass(u) =>
      var h := HoldingOf(cfg, u.walletAddress, up, w);
      var value := Valuation.ProRata(h.pool.balance, h.shares, h.pool.totalShares);
      var sub := match SubscriptionOf(db.subscriptions, u.id)
                 case None => None
                 case Some(s) => Some(SubscriptionSummary(s.status, s.periodEnd));
      Served(MeView(u.id, u.walletAddress, h.shares, value, sub), h.world)
  }

  datatype TransactionsPage = TransactionsPage(rows: Option<seq<Transaction>>, pagination: Paging.Pagination)

  /** `GET /transactions`: one page of the caller's rows; `total` counts all of them. */
  function Transactions(header: Option<string>, verify: string -> Verdict, db: Db, now: nat,
                        page: Option<int>, limit: Option<int>): (r: Gate<TransactionsPage>)
    ensures r.Reject? <==> RequireSubscriber(header, verify, db, now).Reject?
    ensures r.Reject? ==> r.code == RequireSubscriber(header, verify, db, now).code
    ensures r.Pass? ==>
              var mine := TransactionsOf(db.transactions, RequireSubscriber(header, verify, db, now).ctx.id);
              && r.ctx.pagination == Paging.Paginate(page, limit, |mine|)
              && (r.ctx.rows.Some? ==> forall t :: t in r.ctx.rows.value ==> t in mine)
  {
    match RequireSubscriber(header, verify, db, now)
    case Reject(code) => Reject(code)
    case Pass(ctx) =>
      var mine := TransactionsOf(db.transactions, ctx.id);
      var p := Paging.Paginate(page, limit, |mine|);
      Pass(TransactionsPage(Paging.Window(mine, p.skip, p.limit), p))
  }

  /** The summed amount of one user's CONFIRMED rows of one type (the `groupBy` over `type`). */
  function ConfirmedTotal(txs: seq<Transaction>, userId: string, kind: TxType): (total: nat)
    // every confirmed row of the user and type is part of the sum
    ensures forall k :: 0 <= k < |txs| && txs[k].userId == userId && txs[k].kind == kind && txs[k].status == Confirmed ==>
              txs[k].amount <= total
  {
    if txs == [] then 0
    else
      var t := txs[0];
      (if t.userId == userId && t.kind == kind && t.status == Confirmed then t.amount else 0)
        + ConfirmedTotal(txs[1..], userId, kind)
  }

  /** Totals add up over any split of the table. */
  lemma {:induction false} ConfirmedTotalAppend(a: seq<Transaction>, b: seq<Transaction>, userId: string, kind: TxType)
    ensures ConfirmedTotal(a + b, userId, kind) == ConfirmedTotal(a, userId, kind) + ConfirmedTotal(b, userId, kind)
    decreases |a|
  {
    if a == [] {
      assert a + b == b;
    } else {
      assert (a + b)[1..] == a[1..] + b;
      ConfirmedTotalAppend(a[1..], b, userId, kind);
    }
  }

  /** Only a matching confirmed row contributes: without one the total is 0 (`|| '0'`). */
  lemma {:induction false} ConfirmedTotalZero(txs: seq<Transaction>, userId: string, kind: TxType)
    requires forall k :: 0 <= k < |txs| ==>
               txs[k].userId != userId || txs[k].kind != kind || txs[k].status != Confirmed || txs[k].amount == 0
    ensures ConfirmedTotal(txs, userId, kind) == 0
    decreases |txs|
  {
    if txs != [] {
      ConfirmedTotalZero(txs[1..], userId, kind);
    }
  }

  /** A single row contributes its amount exactly when it is a confirmed row of the user and type,
      so recording a row adds exactly that contribution to the total. */
  lemma RecordedRowContributes(txs: seq<Transaction>, t: Transaction, userId: string, kind: TxType)
    ensures ConfirmedTotal([t], userId, kind) ==
              (if t.userId == userId && t.kind == kind && t.status == Confirmed then t.amount else 0)
    ensures ConfirmedTotal(txs + [t], userId, kind) == ConfirmedTotal(txs, userId, kind) + ConfirmedTotal([t], userId, kind)
  {
    assert [t][1..] == [];
    ConfirmedTotalAppend(txs, [t], userId, kind);
  }

  /** Recording a pending or failed row, or a row of someone else, leaves every total as it was. */
  lemma UnconfirmedRowChangesNothing(txs: seq<Transaction>, t: Transaction, userId: string, kind: TxType)
    requires t.status != Confirmed || t.userId != userId
    ensures ConfirmedTotal(txs + [t], userId, kind) == ConfirmedTotal(txs, userId, kind)
  {
    ConfirmedTotalAppend(txs, [t], userId, kind);
    assert [t][1..] == [];
  }

  datatype Dashboard = Dashboard(
    shares: nat,
    currentValue: nat,
    poolBasisPoints: nat,
    pool: Chain.PoolState,
    deposited: nat,
    withdrawn: nat,
    estimatedProfit: int,
    recent: seq<Transaction>)

  const RecentCount := 5

  /** `GET /dashboard` (the route's second user lookup is the one `Me` describes). */
  function DashboardOf(header: Option<string>, verify: string -> Verdict, db: Db, now: nat,
                       cfg: Chain.Config, up: Chain.Upstream, w: Chain.World): (r: Answer<Dashboard>)
    ensures r.Refused? <==> RequireSubscriber(header, verify, db, now).Reject?
    ensures r.Refused? ==> r.code == RequireSubscriber(header, verify, db, now).code
    ensures r.Served? ==>
              var u := RequireSubscriber(header, verify, db, now).ctx;
              var d := r.body;
              var h := HoldingOf(cfg, u.walletAddress, up, w);
              && d.shares == h.shares && d.pool == h.pool && r.world == h.world
              && d.deposited == ConfirmedTotal(db.transactions, u.id, Deposit)
              && d.withdrawn == ConfirmedTotal(db.transactions, u.id, Withdraw)
              && d.estimatedProfit + d.deposited == d.currentValue + d.withdrawn
              && d.currentValue == Valuation.ProRata(d.pool.balance, d.shares, d.pool.totalShares)
              && d.poolBasisPoints == Valuation.PoolBasisPoints(d.shares, d.pool.totalShares)
              && |d.recent| <= RecentCount
              && (forall t :: t in d.recent ==> t in db.transactions && t.userId == u.id)
    // the newest rows of the user: every one of them when there are at most five
    ensures r.Served? ==>
              var mine := TransactionsOf(db.transactions, RequireSubscriber(header, verify, db, now).ctx.id);
              && (|mine| <= RecentCount ==> r.body.recent == mine)
              && (|mine| > RecentCount ==> |r.body.recent| == RecentCount)
              && forall k :: 0 <= k < |r.body.recent| ==> r.body.recent[k] == mine[k]
    ensures r.Served? && Chain.CacheWf(cfg, w.cache) ==> Chain.CacheWf(cfg, r.world.cache)
  {
    match RequireSubscriber(header, verify, db, now)
    case Reject(code) => Refused(code)
    case Pass(u) =>
      var h := HoldingOf(cfg, u.walletAddress, up, w);
      var value := Valuation.ProRata(h.pool.balance, h.shares, h.pool.totalShares);
      var bp := Valuation.PoolBasisPoints(h.shares, h.pool.totalShares);
      var deposited := ConfirmedTotal(db.transactions, u.id, Deposit);
      var withdrawn := ConfirmedTotal(db.transactions, u.id, Withdraw);
      var mine := TransactionsOf(db.transactions, u.id);
      var recent := Take(mine, RecentCount);
      Served(Dashboard(h.shares, value, bp, h.pool, deposited, withdrawn,
                       Valuation.NetProfit(value, deposited, withdrawn), recent), h.world)
  }
}

=== FILE: valuation.dfy ===
/**
 * Position and valuation arithmetic of the pool and user routes and the sync job.
 * Chain quantities are natural numbers; every division is JavaScript `BigInt` division,
 * guarded against a zero denominator the way the routes guard it.
 */
module Valuation {
  import Arith

  /** Percentages are computed as integers scaled by 10 000 (basis points, or hundredths of a percent). */
  const Scale := 10000

  /** `balance * shares / totalShares`, or 0 when there are no shares at all. */
  function ProRata(balance: nat, shares: nat, totalShares: nat): (v: nat)
    ensures totalShares == 0 ==> v == 0
    ensures totalShares > 0 ==> v * totalShares <= balance * shares < (v + 1) * totalShares
  {
    if totalShares > 0 then balance * shares / totalShares else 0
  }

  /** Holding no more than all the shares, one's value never exceeds the pool balance. */
  lemma {:induction false} ProRataWithinBalance(balance: nat, shares: nat, totalShares: nat)
    requires shares <= totalShares
    ensures ProRata(balance, shares, totalShares) <= balance
  {
    if totalShares > 0 {
      var v := ProRata(balance, shares, totalShares);
      assert v * totalShares <= balance * shares;
      assert balance * shares <= balance * totalShares by {
        assert balance * (totalShares - shares) >= 0;
      }
    }
  }

  /** More shares never yield a smaller value. */
  lemma {:induction false} ProRataMonotone(balance: nat, s1: nat, s2: nat, totalShares: nat)
    requires s1 <= s2
    ensures ProRata(balance, s1, totalShares) <= ProRata(balance, s2, totalShares)
  {
    if totalShares > 0 {
      var v1 := ProRata(balance, s1, totalShares);
      var v2 := ProRata(balance, s2, totalShares);
      assert balance * s1 <= balance * s2 by {
        assert balance * (s2 - s1) >= 0;
      }
    }
  }

  /** Share of the pool in basis points: `shares * 10000 / totalShares`, or 0 with no shares. */
  function PoolBasisPoints(shares: nat, totalShares: nat): (bp: nat)
    ensures totalShares == 0 ==> bp == 0
    ensures totalShares > 0 ==> bp * totalShares <= shares * Scale < (bp + 1) * totalShares
  {
    if totalShares > 0 then shares * Scale / totalShares else 0
  }

  /** The basis-point share is the pro-rata value of a 10 000-unit pool, so it never exceeds 10 000. */
  lemma PoolBasisPointsBounded(shares: nat, totalShares: nat)
    requires shares <= totalShares
    ensures PoolBasisPoints(shares, totalShares) == ProRata(Scale, shares, totalShares)
    ensures PoolBasisPoints(shares, totalShares) <= Scale
  {
    ProRataWithinBalance(Scale, shares, totalShares);
  }

  /** Testnet profit: value above the 1:1 initial share value, clamped at 0. */
  function TestnetProfit(value: nat, shares: nat): (p: nat)
    ensures value >= shares ==> p + shares == value
    ensures value <= shares ==> p == 0
  {
    if value > shares then value - shares else 0
  }

  /**
   * Testnet profit percent in hundredths of a percent: the UNCLAMPED difference
   * `(value - shares) * 10000 / shares`, truncated toward zero, or 0 with no shares.
   */
  function TestnetProfitPercent(value: nat, shares: nat): (pct: int)
    ensures shares == 0 ==> pct == 0
    ensures shares > 0 ==> Arith.Abs((value - shares) * Scale - pct * shares) < shares
    ensures shares > 0 && value >= shares ==> pct >= 0 && pct * shares <= (value - shares) * Scale
    ensures shares > 0 && value < shares ==> pct <= 0 && pct * shares >= (value - shares) * Scale
    ensures pct >= -Scale
  {
    if shares > 0 then
      var q := Arith.TruncDiv((value - shares) * Scale, shares);
      PercentFacts(value, shares, q);
      q
    else 0
  }

  /** What truncating `(value - shares) * 10000` by `shares` gives, spelled out for the percent. */
  lemma PercentFacts(value: nat, shares: nat, q: int)
    requires shares > 0
    requires q == Arith.TruncDiv((value - shares) * Scale, shares)
    ensures Arith.Abs((value - shares) * Scale - q * shares) < shares
    ensures value >= shares ==> q >= 0 && q * shares <= (value - shares) * Scale
    ensures value < shares ==> q <= 0 && q * shares >= (value - shares) * Scale
    ensures q >= -Scale
  {
    var a := (value - shares) * Scale;
    assert value >= shares <==> a >= 0;
    assert a >= -Scale * shares;
  }

  /**
   * A loss always reports a profit of 0, while its percent is negative exactly when the
   * loss reaches a hundredth of a percent of the shares; a smaller loss truncates to 0.
   */
  lemma {:induction false} LossShowsInPercentOnly(value: nat, shares: nat)
    requires value < shares
    ensures TestnetProfit(value, shares) == 0
    ensures TestnetProfitPercent(value, shares) < 0 <==> (shares - value) * Scale >= shares
  {
    var pct := TestnetProfitPercent(value, shares);
    var n: int := shares;
    var loss: int := (shares - value) * Scale;
    assert pct <= 0 && pct * n >= -loss && -loss - pct * n > -n;
    if pct < 0 {
      assert pct * n <= -n by { NegativeTimes(pct, n); }
    }
  }

  /** A negative multiple of a positive number is at most its negation. */
  lemma NegativeTimes(k: int, n: int)
    requires k < 0 && n > 0
    ensures k * n <= -n
  {
    Arith.MulAtLeast(-k, n);
    assert k * n == -((-k) * n);
  }

  /**
   * Mainnet profit percent in hundredths of a percent: the contract's `profit` (negative
   * on a loss) over the initial value `value - profit`, truncated toward zero, or 0 when
   * the initial value is not positive.
   */
  function MainnetProfitPercent(value: int, profit: int): (pct: int)
    ensures value - profit <= 0 ==> pct == 0
    ensures value - profit > 0 ==> Arith.Abs(profit * Scale - pct * (value - profit)) < value - profit
    ensures value - profit > 0 && profit >= 0 ==> pct >= 0 && pct * (value - profit) <= profit * Scale
    ensures value - profit > 0 && profit < 0 ==> pct <= 0 && pct * (value - profit) >= profit * Scale
  {
    if value - profit > 0 then Arith.TruncDiv(profit * Scale, value - profit) else 0
  }

  /** Dashboard profit: current value minus deposits plus withdrawals; it can be negative. */
  function NetProfit(currentValue: nat, deposited: nat, withdrawn: nat): (p: int)
    ensures p + deposited == currentValue + withdrawn
    ensures p < 0 <==> deposited > currentValue + withdrawn
  {
    currentValue - deposited + withdrawn
  }
}

=== FILE: webhook.dfy ===
/**
 * The payment-provider webhook: signature gate, event dispatch, and the four handlers that
 * move subscription rows between ACTIVE, CANCELED, PAST_DUE and INACTIVE. Rows are found
 * by the provider's customer id; signature verification is abstracted as a boolean.
 */
module Webhook {
  import opened Wrappers
  import opened Store

  const ThirtyDaysMs := 30 * 24 * 60 * 60 * 1000

  /** `mapStripeStatus`: total over all provider status strings. */
  function MapStripeStatus(s: string): (st: Status)
    ensures st == Active <==> s == "active" || s == "trialing"
    ensures st == Canceled <==> s == "canceled"
    ensures st == PastDue <==> s == "past_due" || s == "unpaid"
    ensures st == Inactive <==> s !in {"active", "trialing", "canceled", "past_due", "unpaid"}
  {
    match s
    case "active" => Active
    case "trialing" => Active
    case "canceled" => Canceled
    case "past_due" => PastDue
    case "unpaid" => PastDue
    case _ => Inactive
  }

  /** The fields of the event payload the handlers read (times in provider seconds). */
  datatype StripeObject = StripeObject(
    id: string,
    customer: string,
    subscription: string,
    status: string,
    periodStartSec: nat,
    periodEndSec: nat)

  datatype Event = Event(kind: string, payload: StripeObject)

  predicate OfCustomer(s: Subscription, customer: string) {
    s.stripeCustomerId == Some(customer)
  }

  /** `findFirst` by customer id, then `update` of that one row. */
  function UpdateFirst(subs: seq<Subscription>, customer: string, f: Subscription -> Subscription): (r: seq<Subscription>)
    ensures |r| == |subs|
    ensures forall j :: 0 <= j < |subs| && !OfCustomer(subs[j], customer) ==> r[j] == subs[j]
    ensures forall j :: 0 <= j < |subs| && r[j] != subs[j] ==>
              r[j] == f(subs[j]) && forall k :: 0 <= k < j ==> !OfCustomer(subs[k], customer)
    ensures (forall j :: 0 <= j < |subs| ==> !OfCustomer(subs[j], customer)) ==> r == subs
    // the customer's first row is the one updated
    ensures forall i :: 0 <= i < |subs| && OfCustomer(subs[i], customer)
                        && (forall k :: 0 <= k < i ==> !OfCustomer(subs[k], customer)) ==>
              r == subs[i := f(subs[i])]
  {
    match FindFirst(subs, (x: Subscription) => OfCustomer(x, customer))
    case Some(i) => subs[i := f(subs[i])]
    case None => subs
  }

  /** `updateMany` by customer id: every row of the customer gets `status`. */
  function SetStatusOfCustomer(subs: seq<Subscription>, customer: string, status: Status): (r: seq<Subscription>)
    ensures |r| == |subs|
    ensures forall j :: 0 <= j < |subs| ==>
              r[j] == (if OfCustomer(subs[j], customer) then subs[j].(status := status) else subs[j])
  {
    seq(|subs|, j requires 0 <= j < |subs| =>
      if OfCustomer(subs[j], customer) then subs[j].(status := status) else subs[j])
  }

  /** `handleCheckoutComplete`: the customer's first row becomes ACTIVE for 30 days from now. */
  function CheckoutCompleted(subs: seq<Subscription>, o: StripeObject, now: nat): (r: seq<Subscription>)
    ensures |r| == |subs|
    ensures forall j :: 0 <= j < |subs| && r[j] != subs[j] ==>
              && r[j] == subs[j].(stripeSubscriptionId := Some(o.subscription), status := Active,
                                  periodStart := Some(now), periodEnd := Some(now + ThirtyDaysMs))
              && OfCustomer(subs[j], o.customer)
              && forall k :: 0 <= k < j ==> r[k] == subs[k]
    ensures forall i :: 0 <= i < |subs| && OfCustomer(subs[i], o.customer)
                        && (forall k :: 0 <= k < i ==> !OfCustomer(subs[k], o.customer)) ==>
              r == subs[i := subs[i].(stripeSubscriptionId := Some(o.subscription), status := Active,
                                      periodStart := Some(now), periodEnd := Some(now + ThirtyDaysMs))]
  {
    UpdateFirst(subs, o.customer, (s: Subscription) =>
      s.(stripeSubscriptionId := Some(o.subscription), status := Active,
         periodStart := Some(now), periodEnd := Some(now + ThirtyDaysMs)))
  }

  /** `handleSubscriptionUpdate`: mapped status and period bounds (seconds to ms) on the customer's first row. */
  function SubscriptionChanged(subs: seq<Subscription>, o: StripeObject): (r: seq<Subscription>)
    ensures |r| == |subs|
    ensures forall j :: 0 <= j < |subs| && r[j] != subs[j] ==>
              && r[j] == subs[j].(stripeSubscriptionId := Some(o.id), status := MapStripeStatus(o.status),
                                  periodStart := Some(o.periodStartSec * 1000), periodEnd := Some(o.periodEndSec * 1000))
              && OfCustomer(subs[j], o.customer)
              && forall k :: 0 <= k < j ==> r[k] == subs[k]
    ensures forall i :: 0 <= i < |subs| && OfCustomer(subs[i], o.customer)
                        && (forall k :: 0 <= k < i ==> !OfCustomer(subs[k], o.customer)) ==>
              r == subs[i := subs[i].(stripeSubscriptionId := Some(o.id), status := MapStripeStatus(o.status),
                                      periodStart := Some(o.periodStartSec * 1000), periodEnd := Some(o.periodEndSec * 1000))]
  {
    UpdateFirst(subs, o.customer, (s: Subscription) =>
      s.(stripeSubscriptionId := Some(o.id), status := MapStripeStatus(o.status),
         periodStart := Some(o.periodStartSec * 1000), periodEnd := Some(o.periodEndSec * 1000)))
  }

  const HandledKinds := {
    "checkout.session.completed",
    "customer.subscription.created",
    "customer.subscription.updated",
    "customer.subscription.deleted",
    "invoice.payment_failed"
  }

  datatype Reply = Reply(code: nat, subscriptions: seq<Subscription>)

  /** `POST /stripe`: the secret and signature gates, then dispatch on the event type. */
  function HandleWebhook(secret: string, signatureValid: bool, ev: Event, subs: seq<Subscription>, now: nat): (r: Reply)
    ensures secret == "" ==> r == Reply(500, subs)
    ensures secret != "" && !signatureValid ==> r == Reply(400, subs)
    ensures secret != "" && signatureValid ==> r.code == 200
    ensures |r.subscriptions| == |subs|
    // rows of other customers are never modified
    ensures forall j :: 0 <= j < |subs| && !OfCustomer(subs[j], ev.payload.customer) ==> r.subscriptions[j] == subs[j]
    // payment_succeeded and unknown events change nothing but are still acknowledged
    ensures ev.kind !in HandledKinds ==> r.subscriptions == subs
    // the checkout and subscription events go to their handlers
    ensures signatureValid && secret != "" && ev.kind == "checkout.session.completed" ==>
              r.subscriptions == CheckoutCompleted(subs, ev.payload, now)
    ensures signatureValid && secret != "" && ev.kind in {"customer.subscription.created", "customer.subscription.updated"} ==>
              r.subscriptions == SubscriptionChanged(subs, ev.payload)
    ensures signatureValid && secret != "" && ev.kind == "customer.subscription.deleted" ==>
              forall j :: 0 <= j < |subs| && OfCustomer(subs[j], ev.payload.customer) ==> r.subscriptions[j].status == Canceled
    ensures signatureValid && secret != "" && ev.kind == "invoice.payment_failed" ==>
              forall j :: 0 <= j < |subs| && OfCustomer(subs[j], ev.payload.customer) ==> r.subscriptions[j].status == PastDue
    // deletion cancels, and a failed payment marks past due, every row of the customer
    ensures signatureValid && secret != "" && ev.kind == "customer.subscription.deleted" ==>
              r.subscriptions == SetStatusOfCustomer(subs, ev.payload.customer, Canceled)
    ensures signatureValid && secret != "" && ev.kind == "invoice.payment_failed" ==>
              r.subscriptions == SetStatusOfCustomer(subs, ev.payload.customer, PastDue)
  {
    if secret == "" then Reply(500, subs)
    else if !signatureValid then Reply(400, subs)
    else
      var next :=
        match ev.kind
        case "checkout.session.completed" => CheckoutCompleted(subs, ev.payload, now)
        case "customer.subscription.created" => SubscriptionChanged(subs, ev.payload)
        case "customer.subscription.updated" => SubscriptionChanged(subs, ev.payload)
        case "customer.subscription.deleted" => SetStatusOfCustomer(subs, ev.payload.customer, Canceled)
        case "invoice.payment_failed" => SetStatusOfCustomer(subs, ev.payload.customer, PastDue)
        case _ => subs;
      Reply(200, next)
  }

  /** A completed checkout activates the customer's first row, and only that row. */
  lemma CheckoutActivatesFirstRow(subs: seq<Subscription>, o: StripeObject, now: nat, i: nat)
    requires i < |subs| && OfCustomer(subs[i], o.customer)
    requires forall k :: 0 <= k < i ==> !OfCustomer(subs[k], o.customer)
    ensures var r := CheckoutCompleted(subs, o, now);
            && r[i].status == Active
            && r[i].periodEnd == Some(now + ThirtyDaysMs)
            && forall j :: 0 <= j < |subs| && j != i ==> r[j] == subs[j]
  {
  }

  /** A subscription event gives the customer's first row the mapped status and the period in ms, and changes nothing else. */
  lemma SubscriptionChangeLandsOnFirstRow(subs: seq<Subscription>, o: StripeObject, i: nat)
    requires i < |subs| && OfCustomer(subs[i], o.customer)
    requires forall k :: 0 <= k < i ==> !OfCustomer(subs[k], o.customer)
    ensures var r := SubscriptionChanged(subs, o);
            && r[i].stripeSubscriptionId == Some(o.id)
            && r[i].status == MapStripeStatus(o.status)
            && r[i].periodStart == Some(o.periodStartSec * 1000)
            && r[i].periodEnd == Some(o.periodEndSec * 1000)
            && forall j :: 0 <= j < |subs| && j != i ==> r[j] == subs[j]
  {
  }
}

=== FILE: wrappers.dfy ===
/** Optional values, the model's counterpart of JavaScript's `undefined`/`null`. */
module Wrappers {

  datatype Option<+T> = None | Some(value: T) {

    /** The wrapped value, or `default` when there is none (JavaScript's `x ?? d`). */
    function GetOr(default: T): T {
      match this
      case Some(v) => v
      case None => default
    }
  }

  /** Position of the first element of `xs` satisfying `p`, as `findFirst` on a table does. */
  function FindFirst<T>(xs: seq<T>, p: T -> bool): (i: Option<nat>)
    ensures i.Some? ==> i.value < |xs| && p(xs[i.value])
    ensures i.Some? ==> forall j :: 0 <= j < i.value ==> !p(xs[j])
    ensures i.None? ==> forall j :: 0 <= j < |xs| ==> !p(xs[j])
    decreases |xs|
  {
    if |xs| == 0 then None
    else if p(xs[0]) then Some(0)
    else
      match FindFirst(xs[1..], p)
      case Some(k) => Some(k + 1)
      case None => None
  }

  /** Prisma's `take: n` on an already ordered result: the first `n` rows, or all of them. */
  function Take<T>(xs: seq<T>, n: nat): (r: seq<T>)
    ensures |r| == if |xs| <= n then |xs| else n
    ensures forall k :: 0 <= k < |r| ==> r[k] == xs[k]
    ensures forall x :: x in r ==> x in xs
  {
    if |xs| <= n then xs
    else
      var r := xs[..n];
      assert forall x :: x in r ==> x in xs by {
        forall x | x in r
          ensures x in xs
        {
          var k :| 0 <= k < |r| && r[k] == x;
          assert xs[k] == x;
        }
      }
      r
  }

  /** The rows of `xs` that satisfy `p`, in order. */
  function Filter<T(!new)>(xs: seq<T>, p: T -> bool): (r: seq<T>)
    ensures forall x :: x in r <==> x in xs && p(x)
    ensures |r| <= |xs|
    ensures (forall k :: 0 <= k < |xs| ==> p(xs[k])) ==> r == xs
  {
    if xs == [] then []
    else if p(xs[0]) then [xs[0]] + Filter(xs[1..], p)
    else Filter(xs[1..], p)
  }

  /** Filtering keeps the order of the rows: it distributes over concatenation. */
  lemma {:induction false} FilterAppend<T(!new)>(a: seq<T>, b: seq<T>, p: T -> bool)
    ensures Filter(a + b, p) == Filter(a, p) + Filter(b, p)
    decreases |a|
  {
    if a != [] {
      assert (a + b)[0] == a[0] && (a + b)[1..] == a[1..] + b;
      FilterAppend(a[1..], b, p);
    } else {
      assert a + b == b;
    }
  }
}
